=== FILE: README.md ===
# Relay dashboard: a Dafny model of its client-side rules

The relay server's browser dashboard has two pages. The main page (`panel.js`) lists the connected phones and the active client connections, and has rotate and restart buttons. The settings page (`settings.js`) stores credentials and the rotation token. Most of the code is DOM and `fetch` glue. This project models the deterministic rules inside it:

- **API URLs** (`ApiBase`): the base URL comes from `<meta name="api-base">` or `window.API_BASE`, with one trailing slash removed. `abs(path)` turns an API path into the URL that is fetched. The two pages define it identically.
- **Formatters** (`Format`):
  - `fmtBytes` picks a unit from B to TB and renders the number the way `toFixed` does.
  - `fmtSince` sorts an age into seconds, minutes or hours, or falls back to a local date.
- **Client table** (`Clients`): `renderClients` without its DOM writes. That is three trimmed, case-sensitive substring filters applied one after another; the filter description; the "found" count; and the up/down rate totals over the rows shown.
- **Stored credentials** (`Panel`, `Settings`): `localStorage` and `sessionStorage` are maps from key to string.
  - On the main page: `setAuth`, `clearAuth`, `getAuthB64` and the login button.
  - On the settings page: `setPanelAuth`, `getPanelAuth`, `clearPanelAuth` and `getAuthHeader`, plus its login button.
- **Rotation token**: saving and clearing it.
- **Response handling**:
  - how `handleJsonResponse` classifies a response;
  - the `/status` probe;
  - the two save-credentials forms;
  - how the rotate and restart buttons read the server's reply.
- **Cross-page facts** (`SharedState`): both pages are served from one origin, so they share `localStorage`, including `localStorage.rotateToken`. `sessionStorage` is kept per tab, so the two pages share `sessionStorage.panelAuth` only when they are opened in the same tab. The model's single `Storage` value stands for that case.

Supporting modules:

- `Wrappers` provides `Option`, which stands for `null`/`undefined`.
- `Text` models the JavaScript string built-ins the code relies on: `trim` with ECMAScript's whitespace set, `includes`, `startsWith`, `join`, and decimal printing of integers.
- `Seqs` models `Array.prototype.filter` and sums, together with the subsequence relation.
- `Browser` holds the shared browser state, `btoa`'s Latin-1 check, and the shapes of `fetch` results.

The encoders `btoa` and `encodeURIComponent` are opaque: each appears as a function parameter of type `string -> string`. `btoa`'s exception for code points above U+00FF is modelled exactly, because it decides whether anything gets stored.

Two details of the code are worth stating:

- **Byte counts with a decimal.** `fmtBytes` shows one decimal for every value below 10 of a unit above bytes, even when the decimal is zero. So 1024 prints "1.0 KB", 2048 prints "2.0 KB" and 1048576 prints "1.0 MB" (`Format.FmtBytesSampleOneKb`, `Format.FmtBytesSampleTwoKb`, `Format.FmtBytesSampleOneMb`).
- **Timestamps.** `fmtSince` divides the elapsed time in seconds and floors it. With timestamps and the clock in integer milliseconds, the model floors the elapsed milliseconds divided by 1000, 60000 or 3600000, which gives the same bands and counts.

## Model

| member | source | states |
|---|---|---|
| ApiBase.StripTrailingSlash | panel.js:12-13 | `replace(/\/$/, "")` removes exactly one trailing slash and leaves a string without one unchanged |
| ApiBase.ResolveBase | panel.js:9-16 | a non-empty meta `content` wins over `window.API_BASE`, and a string `API_BASE` wins over the same-origin default ""; the winner loses one trailing slash |
| ApiBase.Abs | panel.js:17-22 | the four cases of `abs` (settings.js:18-23 is identical): empty or missing path gives the base or "/"; an http(s) URL in any letter case is returned unchanged; with a base exactly one "/" joins base and path; with no base the path is returned |
| ApiBase.AbsIdempotent | panel.js:17-22 | with no base or an absolute http(s) base, passing a URL produced by `abs` through `abs` again changes nothing |
| Format.UnitOf | panel.js:80-82 | the unit index is below 5 (capped at TB), 0 unless 1024^k <= n, and, below TB, n < 1024^(k+1) |
| Format.UnitOfUnique | panel.js:80-82 | that characterisation has only one solution: the index is the largest k <= 4 with 1024^k <= n, or 0 |
| Format.RoundHalfUp | panel.js:83 | `toFixed` rounding of an exact non-negative quotient: the result is within half a unit, halves going up |
| Format.Fixed1 | panel.js:83 | `toFixed(1)` of a non-negative quotient: digits, a point and one digit, reading back as the tenths nearest to the quotient, halves going up |
| Format.Fixed0 | panel.js:83 | `toFixed(0)` of the quotients `fmtBytes` forms: a non-negative one reads back as the nearest integer, halves going up; a negative count prints "-" and its digits |
| Format.FmtBytes | panel.js:78-84 | null prints "0 B"; otherwise the text ends in a space and the unit `UnitOf` selects; the text never contains "/" |
| Format.FmtBytesSmall | panel.js:78-84 | any count below 1024 prints as the plain integer followed by " B" |
| Format.FmtBytesSamplesBytes | panel.js:78-84 | null and 0 print "0 B", 512 prints "512 B" |
| Format.FmtBytesSampleOneKb | panel.js:83 | 1024 prints "1.0 KB": the decimal is shown below ten units even when it is zero |
| Format.FmtBytesSampleTwoKb | panel.js:83 | 2048 prints "2.0 KB" |
| Format.FmtBytesSampleHalfKb | panel.js:78-84 | 1536 prints "1.5 KB" |
| Format.FmtBytesSampleTwentyKb | panel.js:83 | 20480 prints "20 KB": from ten units up no decimal is shown |
| Format.FmtBytesSampleOneMb | panel.js:78-84 | 1048576 prints "1.0 MB" |
| Format.FmtRate | panel.js:85-87 | the badge reads back: after the up arrow, the text up to the first "/" is the up rate's `fmtBytes` text, then "/s · ↓ ", then the down rate's text and a closing "/s" |
| Format.RateTextReadBack | panel.js:85-87 | any badge whose up part has no "/" splits at its first "/" back into its up and down parts, with the fixed arrows and "/s" around them |
| Format.RateTextInjective | panel.js:85-87 | the badge layout splits back uniquely at the first "/" when neither rate text contains one: equal badges have equal parts |
| Format.FmtRateInjective | panel.js:85-87 | both rate texts can be read back from the badge: equal badges show equal up texts and equal down texts |
| Format.FloorInBand | panel.js:93-96 | inside a band, the floored count of that band's unit is the whole number of units elapsed |
| Format.FmtSince | panel.js:88-99 | a falsy stamp gives the dash, and only it does; an unparsable date gives `String(ts)`; a relative age is the whole number of seconds, minutes or hours elapsed, in the band the elapsed time falls in; the local date appears exactly from one day on |
| Format.InBandUnique | panel.js:93-96 | an elapsed time has at most one (count, unit) description, so the relative age is determined by it |
| Format.AgoTextInjective | panel.js:94-96 | different relative ages never print the same text |
| Format.FmtSinceSamples | panel.js:88-97 | 30 s ago gives 30 seconds, 90 s gives 1 minute, 7200 s gives 2 hours, 90000 s gives the local date |
| Format.SinceText | panel.js:88-97 | the text shown for each outcome: "—" for the dash, the stamp itself when unparsable, the count, a space and the unit word for a relative age, and no text exactly for the locale-dependent local date |
| Format.FmtSinceTextSamples | panel.js:88-97 | a falsy stamp prints "—", an unparsable one prints itself, and 30 s, 90 s and 7200 s ago print "30 сек", "1 мин" and "2 ч" |
| Clients.Shown | panel.js:137-145 | the rows shown are an order-preserving subsequence of the list (a missing list is empty); every row shown matches all three trimmed filters; every matching row is shown; with no active filter the list is shown unchanged; and the rows are exactly one `filter` pass with the combined condition, so multiplicities are kept |
| Clients.EmptyFilterPass | panel.js:143-145 | skipping the pass for an empty filter equals running it, since "" is included in every field |
| Clients.ShownIsSinglePass | panel.js:142-145 | the three sequential passes (IP, phone, stream) select exactly what one pass with the combined condition selects, in the same order |
| Clients.ShownMembership | panel.js:138-145 | a row is shown if and only if it is in the list and each trimmed filter occurs in the corresponding field, a missing field reading as "" |
| Clients.ShownTotals | panel.js:160-173 | the totals over the shown rows equal the sums over the whole list restricted to matching rows |
| Clients.FilterParts | panel.js:150-153 | one part per active filter, in the order phone, IP, stream, each labelled with its trimmed value |
| Clients.FilterInfo | panel.js:147-155 | the line starts with "Фильтр: "; it reads "Фильтр: нет" exactly when no filter is active; otherwise it continues with the parts joined by " · " |
| Clients.RateOf | panel.js:170-173 | `a ?? b ?? 0`, then `Number` with NaN read as 0: the first field wins whenever present, a non-numeric value counts 0, and an absent first field falls back to the second |
| Clients.SumRates | panel.js:160-173 | the `forEach` accumulation yields the sums of the up and down rates over the rows |
| Clients.RenderClients | panel.js:133-191 | the view's rows are exactly the rows `Shown` selects (a subsequence, with iff-membership); the filter line is `FilterInfo` of the filters, "нет" exactly without filters; the count line carries the number of rows; the badge totals are the sums over matching rows only |
| Clients.IpOnlyValues | panel.js:138-140 | the filter inputs IP "10.0.0.1", phone and stream missing trim to "10.0.0.1", "" and "" |
| Clients.IpFilterShowsRow | panel.js:142-145 | a one-row list filtered by that row's own IP shows exactly that row |
| Clients.IpFilterDescription | panel.js:150-154 | that filter is described as "Фильтр: IP=10.0.0.1" |
| Seqs.Filter | panel.js:143-145 | `filter` keeps no more elements than it had, keeps only elements passing the test, and keeps every element that passes it |
| Seqs.FilterIsSubsequence | panel.js:143-145 | `filter` preserves the order of the surviving elements |
| Seqs.FilterKeepsAll | panel.js:143-145 | a test every element passes leaves the list unchanged |
| Seqs.FilterTwice | panel.js:143-145 | filtering by one test and then another is filtering once by both |
| Seqs.FilterAppend | panel.js:143-145 | filtering distributes over concatenation |
| Seqs.SumOfFilter | panel.js:163-173 | the sum over the filtered list is the sum over the list of the elements that pass |
| Text.Trim | panel.js:138-140 | `trim` returns the part of the string left after whitespace runs at both ends are cut, which neither starts nor ends with whitespace |
| Text.TrimUnique | panel.js:138-140 | that description determines the result: only one string satisfies it |
| Text.TrimNoOuterSpace | settings.js:136 | a string without whitespace at either end trims to itself |
| Text.TrimIdempotent | settings.js:136 | trimming twice is trimming once |
| Text.TrimEmptyIff | settings.js:136-137 | a string trims to "" if and only if it consists of whitespace only |
| Text.IncludesIff | panel.js:143 | `includes` holds if and only if the needle occurs at some index |
| Text.IncludesEmpty | panel.js:143 | every string includes "" |
| Text.Join | panel.js:154 | a non-empty join starts with its first part |
| Text.NatToString | panel.js:157 | the decimal text of a count is non-empty digits without a leading zero |
| Text.NatToStringRoundTrip | panel.js:157 | reading the digits back gives the number |
| Text.NatToStringInjective | panel.js:157 | different counts print differently |
| Text.IntToString | panel.js:94 | an integer prints with a leading "-" exactly when negative, then digits |
| Text.IntToStringInjective | panel.js:94-96 | different integers print differently |
| Browser.ItemOrEmpty | settings.js:44 | `getItem(key)` defaulting to "": the stored value, or "" for a missing key |
| Browser.Btoa | panel.js:44 | `btoa` succeeds exactly on Latin-1 text and then yields the encoder's output |
| Panel.GetAuthB64 | panel.js:52-57 | a non-empty `localStorage` credential wins; otherwise the `sessionStorage` one, or "" |
| Panel.SetAuth | panel.js:43-47 | storing succeeds exactly when `btoa` accepts "user:pass"; the encoding is then written under both `localStorage.panel_basic_b64` and `sessionStorage.panelAuth`, `getAuthB64` returns it and no other key changes |
| Panel.ClearAuth | panel.js:48-51 | after clearing, both keys are gone, `getAuthB64` returns "" and no other key changed |
| Panel.SetThenClear | panel.js:43-57 | storing and then clearing leaves exactly the state clearing alone leaves |
| Panel.Login | panel.js:228-241 | the user name is trimmed and the password is not; an empty one of them only shows the warning; otherwise the outcome is exactly `setAuth`'s storage with "Вход выполнен", the login hidden and the phone and client lists re-fetched (`fetchAll()`); a `btoa` failure stores nothing, shows nothing and re-fetches nothing |
| Panel.RotateUrl | panel.js:278-279 | the trimmed stored token, when non-empty, is sent URL-encoded as `?token=`; otherwise plain "/rotate" is requested |
| Panel.ErrorOr | panel.js:286 | the error text defaulting to the fallback: a non-empty error text wins, otherwise the fallback |
| Panel.RotateOutcome | panel.js:274-293 | the phone list is refreshed exactly when a 2xx reply parsed; success is shown exactly when `data.ok` is truthy, with the changed count defaulting to 0; a parsed reply without `ok` shows "Ошибка: " with the server's error or "rotate failed"; a non-2xx status is reported as "/rotate http <status>"; a network or JSON failure shows its error text |
| Panel.RestartNotice | panel.js:300-316 | success is shown exactly for a parsed 2xx reply with `ok` truthy or `status` "restarted"; a non-2xx status is reported with it; a parsed reply of neither shape shows the server's error or "restart failed"; a network or JSON failure shows its error text |
| Panel.ActionFailuresAreErrors | panel.js:280-312 | for both buttons, a network failure or a non-2xx status always ends in an error notice and the phone list is not refreshed; a success notice only follows a parsed 2xx reply |
| Settings.GetPanelAuth | settings.js:43-45 | the stored `sessionStorage.panelAuth`, or "" |
| Settings.SetPanelAuth | settings.js:46-49 | storing succeeds exactly when `btoa` accepts "user:pass"; afterwards `getPanelAuth` returns the encoding and nothing else changed |
| Settings.ClearPanelAuth | settings.js:50-52 | after clearing, `getPanelAuth` returns "" and nothing else changed |
| Settings.GetAuthHeader | settings.js:53-56 | no header without a token; otherwise exactly one `Authorization: Basic <token>` header |
| Settings.HeaderAfterSetAndClear | settings.js:43-56 | after storing credentials requests carry exactly their Basic header; after clearing they carry none |
| Settings.HandleJsonResponse | settings.js:73-84 | the body is parsed exactly on 2xx; 401 opens the login and fails with "401", ahead of the generic branch; other failures carry the body text or "HTTP <status>" |
| Settings.ApiSucceeded | settings.js:86-106 | `apiGet`/`apiPost` resolve exactly on a 2xx response whose body parses |
| Settings.EnsureAuth | settings.js:109-126 | the probe fails exactly on a network error or a 401 |
| Settings.ProbeAgreesWithApi | settings.js:73-126 | the `/status` probe and `handleJsonResponse` ask for a login on exactly the same responses, the 401s; a response `handleJsonResponse` parses also passes the probe |
| Settings.LoadRotateToken | settings.js:129-133 | the token field is filled with the stored token, or "" |
| Settings.SaveRotateToken | settings.js:134-140 | a token that trims to "" is refused with "Токен пустой" and nothing stored; otherwise the trimmed token is stored, nothing else changes, and "rotate_token сохранён" is shown |
| Settings.ClearRotateToken | settings.js:141-146 | the token is removed, nothing else changes, an existing field is emptied and "rotate_token очищен" is shown |
| Settings.RotateTokenRoundTrip | settings.js:129-140 | a saved token loads back as the trimmed input, and saving the loaded text again changes nothing |
| Settings.SaveProxyCreds | settings.js:166-177 | both fields trimmed; nothing is sent, with "Нечего сохранять", exactly when both are empty; otherwise the trimmed pair is posted and the notice is "Прокси-учётки сохранены" or "Ошибка сохранения прокси-учёток", the error exactly when the request failed; the login opens exactly on a 401 to a sent request; browser storage never changes |
| Settings.SavePanelCreds | settings.js:179-192 | as for the proxy form, with "Учётки панели сохранены" and "Ошибка сохранения учёток панели"; only `sessionStorage.panelAuth` can change, and only after a successful POST with both fields non-empty, then exactly as `setPanelAuth` leaves it; a `btoa` failure stores nothing and shows the failure notice after the success notice |
| Settings.Login | settings.js:214-221 | both fields trimmed and both required, a missing one giving the only notice; the login closes and the page's data is re-fetched (`loadAll()`) exactly when both are non-empty and `btoa` accepts them, and the storage is then what `setPanelAuth` leaves; otherwise nothing is stored and nothing is re-fetched; only `sessionStorage.panelAuth` can change |
| Settings.LoginSetsHeader | settings.js:53-56 | after a settings-page login, requests carry exactly the Basic header of the trimmed credentials; after a refused login they carry what they carried before |
| Settings.SaveFormsOn401 | settings.js:73-77 | a 401 reply to either save form, whatever its body, leaves storage unchanged, shows that form's failure notice last and opens the login |
| Settings.SaveMatchesLogin | settings.js:184-187 | once the server accepts the POST, saving panel credentials changes storage exactly as the login button with the same fields would |
| SharedState.SettingsLoginReachesPanel | settings.js:46-49 | in the same tab, a settings-page login is what the main page reads when it holds no `localStorage` credential of its own |
| SharedState.PanelLocalCredentialWins | panel.js:52-57 | a main-page `localStorage` credential shadows any later settings-page login |
| SharedState.SavedTokenIsSent | panel.js:278-279 | a token saved on the settings page is the one the rotate button sends; a refused save changes nothing; after clearing, no token is sent |
| SharedState.LoginFormsDisagreeOnBlankPassword | panel.js:229-232 | for every non-blank user name and every non-empty password made only of whitespace, the main page stores the untrimmed password and re-fetches its data, while the settings page trims it and refuses |

## Left out

- Network, DOM and timers: `fetch` and its options, the async control flow, the toast's DOM writes and timeout, the modal's show/hide, and the 3-second polling with its possible overlap. These are I/O. Replies appear as parameters (`Fetched`, `ApiReply`), and notices as values.
- `renderPhones` and the cell text of each client row: protocol and port, "—" for missing fields, and the per-row `fmtBytes`/`fmtSince` calls. These are DOM construction; the formatters themselves are modelled.
- `fetchPhones`, `fetchClients` and `fetchAll`. The `data.clients || data || []` fallback is out; `Clients.Shown` only takes a missing list as empty.
- The local date text `toLocaleString()`. It depends on the browser's locale; `Format.FmtSince` returns the timestamp it would print instead.
- The clock and date parsing. The current time and the parsed time are parameters in milliseconds.
- `btoa` and `encodeURIComponent` themselves. These are foreign encoders and appear as parameters; only `btoa`'s Latin-1 check is modelled.
- Storage exceptions. `setItem`/`getItem` throwing (quota exceeded, storage disabled) is assumed not to happen. The main page swallows such exceptions; the settings page would propagate them.
- The main page's stub authentication: `getAuthHeaderOrNull` always returns null, `testAuth` always resolves true, and `ensureAuthOrAsk` always resolves true. `Panel.Login` uses `testAuth`'s constant answer, so its "wrong login" branch is unreachable and not modelled.
- `loadProxyCreds` and `loadPanelCreds`. Their replies are discarded. A 401 opens the login through `handleJsonResponse` (modelled by `Settings.HandleJsonResponse`); other errors are only logged.
- Clients.Shown: phone and stream fields are strings. The source's `String(c.phone || "")` coercion of numeric values, including a numeric 0 reading as "", is not modelled.
- Clients.RateOf: rates are integers. Fractional rates, and `Number` applied to numeric strings, are not modelled.
- Format.FmtBytes: byte counts are integers and `toFixed` is exact. Floating-point rounding for values beyond 2^53, and `toFixed`'s exponent notation for very large values, are not modelled. The contract states only the unit suffix; the number text is pinned down by the sample lemmas.
- Format.Fixed0: negative fractional quotients are excluded. JavaScript rounds a negative half away from zero and can print "-0"; `fmtBytes` divides only non-negative counts, so it never forms such a quotient.
- SharedState.SettingsLoginReachesPanel: `sessionStorage` is per tab; pages in different tabs share only `localStorage`, and then a settings-page login does not reach the main page. The model has a single `Storage`, so it covers the same-tab case only.
- SharedState.PanelLocalCredentialWins: states the same-tab case, like SharedState.SettingsLoginReachesPanel. In another tab the settings-page login does not change what the main page reads either.
- The error texts of rejected promises (a network error, a JSON parse error) are parameters, not derived.

=== FILE: api_base.dfy ===
/** Where API requests go: the configured base URL (panel.js and settings.js
    compute it identically) and `abs`, which turns an API path into the URL
    that is fetched. */
module ApiBase {
  import opened Wrappers
  import opened Text

  /** `s.replace(/\/$/, "")`: the regular expression is anchored at the end
      and not global, so at most one trailing slash goes. */
  function StripTrailingSlash(s: string): (r: string)
    ensures |s| > 0 && s[|s| - 1] == '/' ==> r + "/" == s
    ensures (|s| == 0 || s[|s| - 1] != '/') ==> r == s
  {
    if |s| > 0 && s[|s| - 1] == '/' then s[..|s| - 1] else s
  }

  /** `base` is `configured` less one trailing slash, if it had one. */
  ghost predicate OneSlashStripped(base: string, configured: string) {
    if |configured| > 0 && configured[|configured| - 1] == '/' then base + "/" == configured
    else base == configured
  }

  /** The base URL of the API. `metaContent` is the `content` attribute of
      `<meta name="api-base">` (`None` when the page has no such tag) and
      `globalBase` is `window.API_BASE` when that is a string. */
  function ResolveBase(metaContent: Option<string>, globalBase: Option<string>): (base: string)
    ensures metaContent.Some? && metaContent.value != "" ==> OneSlashStripped(base, metaContent.value)
    ensures (metaContent.None? || metaContent.value == "") && globalBase.Some? ==> OneSlashStripped(base, globalBase.value)
    ensures (metaContent.None? || metaContent.value == "") && globalBase.None? ==> base == ""
  {
    if metaContent.Some? && metaContent.value != "" then StripTrailingSlash(metaContent.value)
    else if globalBase.Some? then StripTrailingSlash(globalBase.value)
    else ""
  }

  /** `c` matches the lower-case ASCII letter `lower` under the regular
      expression `i` flag. */
  predicate SameLetter(c: char, lower: char)
    requires 'a' <= lower <= 'z'
  {
    c == lower || c as int == lower as int - 32
  }

  /** `/^https?:\/\//i.test(p)`: an absolute http or https URL, scheme in any case. */
  predicate IsHttpUrl(p: string) {
    && |p| >= 7
    && SameLetter(p[0], 'h') && SameLetter(p[1], 't') && SameLetter(p[2], 't') && SameLetter(p[3], 'p')
    && (p[4..7] == "://" || (|p| >= 8 && SameLetter(p[4], 's') && p[5..8] == "://"))
  }

  /** `abs(path)`: the URL fetched for an API path, given the resolved base.
      `path` is `None` for `undefined` or `null`. */
  function Abs(base: string, path: Option<string>): (url: string)
    ensures (path.None? || path.value == "") ==> url == (if base == "" then "/" else base)
    ensures path.Some? && IsHttpUrl(path.value) ==> url == path.value
    ensures path.Some? && path.value != "" && !IsHttpUrl(path.value) && base != "" ==>
              url == base + "/" + (if StartsWith(path.value, "/") then path.value[1..] else path.value)
    ensures path.Some? && path.value != "" && base == "" ==> url == path.value
  {
    if path.None? || path.value == "" then (if base == "" then "/" else base)
    else if IsHttpUrl(path.value) then path.value
    else if base != "" then base + (if StartsWith(path.value, "/") then path.value else "/" + path.value)
    else path.value
  }

  /** With no base, or with an absolute http(s) base, resolving a resolved URL
      again changes nothing. */
  lemma AbsIdempotent(base: string, path: Option<string>)
    requires base == "" || IsHttpUrl(base)
    ensures Abs(base, Some(Abs(base, path))) == Abs(base, path)
  {
  }
}

=== FILE: browser.dfy ===
/** The browser state both pages share (they are served from one origin):
    `localStorage` and `sessionStorage` as key-to-string maps, the toast
    notification, the responses of API calls, and `btoa`'s input check. */
module Browser {
  import opened Wrappers

  type Store = map<string, string>

  /** The `sessionStorage` key of the encoded panel credentials. The settings
      page keeps them there; the dashboard writes and reads it as its older
      compatibility key. */
  const PanelAuthKey: string := "panelAuth"
  /** The `localStorage` key of the rotation token: the settings page saves it,
      the dashboard's rotate button reads it. */
  const RotateTokenKey: string := "rotateToken"

  /** `localStorage` and `sessionStorage`. */
  datatype Storage = Storage(local: Store, session: Store)

  /** `store.getItem(key) || ""`: a missing key and an empty value both read
      as "". */
  function ItemOrEmpty(store: Store, key: string): (value: string)
    ensures key in store ==> value == store[key]
    ensures key !in store ==> value == ""
  {
    if key in store then store[key] else ""
  }

  /** A `toast(text, isErr)` notification. */
  datatype Notice = Notice(text: string, isError: bool)

  /** `btoa` throws an `InvalidCharacterError` for code points above U+00FF. */
  predicate Latin1(s: string) {
    forall k :: 0 <= k < |s| ==> s[k] as int <= 0xFF
  }

  /** `btoa(s)`, with the Base64 encoder itself an opaque parameter: `None`
      when `btoa` would throw. */
  function Btoa(encode: string -> string, s: string): (r: Option<string>)
    ensures r.Some? <==> Latin1(s)
    ensures r.Some? ==> r.value == encode(s)
  {
    if Latin1(s) then Some(encode(s)) else None
  }

  /** The `${user}:${pass}` text both pages encode. */
  function Credential(user: string, pass: string): string {
    user + ":" + pass
  }

  /** A parsed response body: `r.json()` either rejects with an error whose
      text is `errorText`, or yields `data`. `Malformed` also stands for a body
      that parses but whose property read throws (a JSON `null` makes `data.ok`
      a TypeError), which the same `catch` turns into an error notice. */
  datatype Body<D> = Malformed(errorText: string) | Parsed(data: D)

  /** The outcome of `fetch`: a rejection (`errorText` is `String(e)`), or a
      response with its status and body. */
  datatype Fetched<D> = NetworkFailure(errorText: string) | Response(status: int, body: Body<D>)

  /** `Response.ok`. */
  predicate IsOk(status: int) {
    200 <= status <= 299
  }

  /** `String(new Error(message))`. */
  function ErrorText(message: string): string {
    "Error: " + message
  }
}

=== FILE: clients.dfy ===
/** The client-connection table of panel.js (`renderClients`) without its DOM
    writes: the three substring filters, the filter description, the row
    count and the up/down rate totals over the rows shown. */
module Clients {
  import opened Wrappers
  import opened Text
  import opened Seqs
  import Format

  /** A per-second rate field as `??` and `Number(x) || 0` see it: absent
      (`null`/`undefined`, so `??` falls through), a number, or a present
      value whose `Number(...)` is `NaN`. */
  datatype RateField = Absent | Num(value: int) | NotANumber

  /** One row of `/clients`. Only the fields the filters and totals read are
      kept; `None` is a missing (`undefined`/`null`) field. */
  datatype Client = Client(
    stream: Option<string>,
    phone: Option<string>,
    ip: Option<string>,
    bytesUpRate: RateField,
    rateUp: RateField,
    bytesDownRate: RateField,
    rateDown: RateField)

  /** The three filter inputs (`None` when the input element is missing). */
  datatype Filters = Filters(ip: Option<string>, phone: Option<string>, stream: Option<string>)

  /** `x || ""` for an optional string. */
  function OrEmpty(x: Option<string>): string {
    x.GetOr("")
  }

  function IpFilter(f: Filters): string { Trim(OrEmpty(f.ip)) }
  function PhoneFilter(f: Filters): string { Trim(OrEmpty(f.phone)) }
  function StreamFilter(f: Filters): string { Trim(OrEmpty(f.stream)) }

  /** No filter is active: all three inputs are empty or whitespace. */
  predicate NoActiveFilter(f: Filters) {
    IpFilter(f) == "" && PhoneFilter(f) == "" && StreamFilter(f) == ""
  }

  /** The reference condition for a row to be shown: each trimmed filter text
      occurs in the corresponding field, a missing field reading as "". An
      empty filter occurs in every field, so it imposes nothing. */
  predicate Matches(c: Client, f: Filters) {
    && Includes(OrEmpty(c.ip), IpFilter(f))
    && Includes(OrEmpty(c.phone), PhoneFilter(f))
    && Includes(OrEmpty(c.stream), StreamFilter(f))
  }

  function IpTest(f: Filters): Client -> bool { (c: Client) => Includes(OrEmpty(c.ip), IpFilter(f)) }
  function PhoneTest(f: Filters): Client -> bool { (c: Client) => Includes(OrEmpty(c.phone), PhoneFilter(f)) }
  function StreamTest(f: Filters): Client -> bool { (c: Client) => Includes(OrEmpty(c.stream), StreamFilter(f)) }
  function MatchTest(f: Filters): Client -> bool { (c: Client) => Matches(c, f) }

  /** The rows `renderClients` shows, computed as the source does: a missing
      list is empty, then one `filter` pass per non-empty filter, in the order
      IP, phone, stream. */
  function Shown(clients: Option<seq<Client>>, f: Filters): (rows: seq<Client>)
    ensures IsSubsequence(rows, clients.GetOr([]))
    ensures forall k :: 0 <= k < |rows| ==> Matches(rows[k], f)
    ensures forall c :: c in clients.GetOr([]) && Matches(c, f) ==> c in rows
    ensures NoActiveFilter(f) ==> rows == clients.GetOr([])
    ensures rows == Filter(clients.GetOr([]), MatchTest(f))
  {
    var all := clients.GetOr([]);
    var byIp := if IpFilter(f) != "" then Filter(all, IpTest(f)) else all;
    var byPhone := if PhoneFilter(f) != "" then Filter(byIp, PhoneTest(f)) else byIp;
    var rows := if StreamFilter(f) != "" then Filter(byPhone, StreamTest(f)) else byPhone;
    ShownIsSinglePass(clients, f);
    FilterIsSubsequence(all, MatchTest(f));
    rows
  }

  /** Skipping the pass for an empty filter is the same as running it: every
      field includes "". */
  lemma EmptyFilterPass(s: seq<Client>, field: Client -> string, test: Client -> bool)
    requires forall c :: test(c) == Includes(field(c), "")
    ensures Filter(s, test) == s
  {
    forall k | 0 <= k < |s|
      ensures test(s[k])
    {
      IncludesEmpty(field(s[k]));
    }
    FilterKeepsAll(s, test);
  }

  /** The three sequential passes select exactly the rows a single pass with
      `Matches` selects, in the same order. */
  lemma ShownIsSinglePass(clients: Option<seq<Client>>, f: Filters)
    ensures
      var all := clients.GetOr([]);
      var byIp := if IpFilter(f) != "" then Filter(all, IpTest(f)) else all;
      var byPhone := if PhoneFilter(f) != "" then Filter(byIp, PhoneTest(f)) else byIp;
      (if StreamFilter(f) != "" then Filter(byPhone, StreamTest(f)) else byPhone) == Filter(all, MatchTest(f))
  {
    var all := clients.GetOr([]);
    var byIp := if IpFilter(f) != "" then Filter(all, IpTest(f)) else all;
    var byPhone := if PhoneFilter(f) != "" then Filter(byIp, PhoneTest(f)) else byIp;
    var rows := if StreamFilter(f) != "" then Filter(byPhone, StreamTest(f)) else byPhone;
    if IpFilter(f) == "" { EmptyFilterPass(all, (c: Client) => OrEmpty(c.ip), IpTest(f)); }
    assert byIp == Filter(all, IpTest(f));
    if PhoneFilter(f) == "" { EmptyFilterPass(byIp, (c: Client) => OrEmpty(c.phone), PhoneTest(f)); }
    assert byPhone == Filter(byIp, PhoneTest(f));
    if StreamFilter(f) == "" { EmptyFilterPass(byPhone, (c: Client) => OrEmpty(c.stream), StreamTest(f)); }
    assert rows == Filter(byPhone, StreamTest(f));
    var ipPhone: Client -> bool := c => IpTest(f)(c) && PhoneTest(f)(c);
    FilterTwice(all, IpTest(f), PhoneTest(f), ipPhone);
    FilterTwice(all, ipPhone, StreamTest(f), MatchTest(f));
  }

  /** A row is shown exactly when it is in the list and matches. */
  lemma ShownMembership(clients: Option<seq<Client>>, f: Filters)
    ensures forall c :: c in Shown(clients, f) <==> c in clients.GetOr([]) && Matches(c, f)
  {
  }

  /** Totals over the shown rows count every matching row of the whole list
      and nothing else. */
  lemma ShownTotals(clients: Option<seq<Client>>, f: Filters)
    ensures Sum(Shown(clients, f), UpRate) == SumWhere(clients.GetOr([]), MatchTest(f), UpRate)
    ensures Sum(Shown(clients, f), DownRate) == SumWhere(clients.GetOr([]), MatchTest(f), DownRate)
  {
    ShownIsSinglePass(clients, f);
    SumOfFilter(clients.GetOr([]), MatchTest(f), UpRate);
    SumOfFilter(clients.GetOr([]), MatchTest(f), DownRate);
  }

  /** The label-and-value parts of the filter description, in the order
      phone, IP, stream. */
  function FilterParts(f: Filters): (parts: seq<string>)
    ensures |parts| == (if PhoneFilter(f) != "" then 1 else 0) + (if IpFilter(f) != "" then 1 else 0)
                       + (if StreamFilter(f) != "" then 1 else 0)
    ensures PhoneFilter(f) != "" ==> parts[0] == "Телефон=" + PhoneFilter(f)
    ensures IpFilter(f) != "" ==> parts[if PhoneFilter(f) != "" then 1 else 0] == "IP=" + IpFilter(f)
    ensures StreamFilter(f) != "" ==> parts[|parts| - 1] == "Stream=" + StreamFilter(f)
  {
    (if PhoneFilter(f) != "" then ["Телефон=" + PhoneFilter(f)] else [])
    + (if IpFilter(f) != "" then ["IP=" + IpFilter(f)] else [])
    + (if StreamFilter(f) != "" then ["Stream=" + StreamFilter(f)] else [])
  }

  const FilterPrefix: string := "Фильтр: "
  const NoFilterText: string := "Фильтр: нет"

  /** The `filterInfo` line. */
  function FilterInfo(f: Filters): (text: string)
    ensures StartsWith(text, FilterPrefix)
    ensures text == NoFilterText <==> NoActiveFilter(f)
    ensures !NoActiveFilter(f) ==> text[|FilterPrefix|..] == Join(FilterParts(f), " · ")
  {
    var parts := FilterParts(f);
    if |parts| > 0 then
      var joined := Join(parts, " · ");
      assert joined[0] == parts[0][0];
      assert (FilterPrefix + joined)[|FilterPrefix|] == joined[0];
      FilterPrefix + joined
    else NoFilterText
  }

  /** `x ?? y ?? 0` followed by `Number(...) || 0`: the first field wins when
      present, even when it is not a number. */
  function RateOf(primary: RateField, fallback: RateField): (rate: int)
    ensures primary.Num? ==> rate == primary.value
    ensures primary.NotANumber? ==> rate == 0
    ensures primary.Absent? && fallback.Num? ==> rate == fallback.value
    ensures primary.Absent? && !fallback.Num? ==> rate == 0
  {
    var chosen := if primary.Absent? then fallback else primary;
    if chosen.Num? then chosen.value else 0
  }

  function UpRate(c: Client): int { RateOf(c.bytesUpRate, c.rateUp) }
  function DownRate(c: Client): int { RateOf(c.bytesDownRate, c.rateDown) }

  /** The `forEach` over the shown rows that accumulates `totalUpRate` and
      `totalDownRate`. */
  method SumRates(rows: seq<Client>) returns (up: int, down: int)
    ensures up == Sum(rows, UpRate) && down == Sum(rows, DownRate)
  {
    up, down := 0, 0;
    var i := 0;
    while i < |rows|
      invariant 0 <= i <= |rows|
      invariant up == Sum(rows[..i], UpRate)
      invariant down == Sum(rows[..i], DownRate)
    {
      assert rows[..i + 1] == rows[..i] + [rows[i]];
      SumSnoc(rows[..i], rows[i], UpRate);
      SumSnoc(rows[..i], rows[i], DownRate);
      up := up + UpRate(rows[i]);
      down := down + DownRate(rows[i]);
      i := i + 1;
    }
    assert rows[..|rows|] == rows;
  }

  /** What `renderClients` writes: the rows, the filter line, the count line
      and the two totals of the rate badge. */
  datatype ClientsView = ClientsView(
    rows: seq<Client>, filterInfo: string, found: string, totalUp: int, totalDown: int, badge: string)

  /** `renderClients(clients, filters)`: the rows are the filtered
      subsequence, and the totals are accumulated row by row over the rows
      shown only. */
  method RenderClients(clients: Option<seq<Client>>, f: Filters) returns (v: ClientsView)
    ensures IsSubsequence(v.rows, clients.GetOr([]))
    ensures forall c :: c in v.rows <==> c in clients.GetOr([]) && Matches(c, f)
    ensures v.rows == Shown(clients, f) && v.filterInfo == FilterInfo(f)
    ensures v.filterInfo == NoFilterText <==> NoActiveFilter(f)
    ensures v.found == "Найдено: " + NatToString(|v.rows|)
    ensures v.totalUp == Sum(v.rows, UpRate) && v.totalDown == Sum(v.rows, DownRate)
    ensures v.badge == Format.FmtRate(v.totalUp, v.totalDown)
    ensures v.totalUp == SumWhere(clients.GetOr([]), MatchTest(f), UpRate)
    ensures v.totalDown == SumWhere(clients.GetOr([]), MatchTest(f), DownRate)
  {
    var rows := Shown(clients, f);
    var up, down := SumRates(rows);
    ShownMembership(clients, f);
    ShownTotals(clients, f);
    v := ClientsView(rows, FilterInfo(f), "Найдено: " + NatToString(|rows|), up, down, Format.FmtRate(up, down));
  }

  /** The filter used in the examples below: IP "10.0.0.1" only. */
  const IpOnly: Filters := Filters(Some("10.0.0.1"), None, None)

  lemma IpOnlyValues()
    ensures IpFilter(IpOnly) == "10.0.0.1" && PhoneFilter(IpOnly) == "" && StreamFilter(IpOnly) == ""
  {
    TrimNoOuterSpace("10.0.0.1");
    TrimNoOuterSpace("");
  }

  /** A one-row list filtered by that row's own IP shows the row. */
  lemma IpFilterShowsRow(c: Client)
    requires c.ip == Some("10.0.0.1")
    ensures Shown(Some([c]), IpOnly) == [c]
  {
    IpOnlyValues();
    assert StartsWith("10.0.0.1", "10.0.0.1");
    assert IpTest(IpOnly)(c);
    assert [c][1..] == [];
    assert Filter([c], IpTest(IpOnly)) == [c] + Filter([], IpTest(IpOnly));
  }

  /** The description of that filter names the IP filter only. */
  lemma IpFilterDescription()
    ensures FilterInfo(IpOnly) == "Фильтр: IP=10.0.0.1"
  {
  }
}

=== FILE: format.dfy ===
/** The display formatters of panel.js: `fmtBytes` (byte counts with a
    B/KB/MB/GB/TB unit) and `fmtSince` (age of a timestamp in seconds,
    minutes, hours, or a locale date). */
module Format {
  import opened Wrappers
  import opened Text

  /** The unit names `fmtBytes` steps through. */
  const Units: seq<string> := ["B", "KB", "MB", "GB", "TB"]

  function Pow1024(k: nat): (p: nat)
    ensures p >= 1
  {
    if k == 0 then 1 else 1024 * Pow1024(k - 1)
  }

  /** The unit index `fmtBytes` reaches for `n` bytes when its loop starts at
      index `i`: it keeps dividing by 1024 while the value is at least 1024 and
      a larger unit remains. Division by 1024 is exact in binary floating point,
      so after `i` divisions `v >= 1024` is exactly `n >= 1024^(i+1)`. */
  function UnitFrom(n: int, i: nat): (k: nat)
    requires i < |Units|
    requires i == 0 || Pow1024(i) <= n
    ensures i <= k < |Units|
    ensures k == 0 || Pow1024(k) <= n
    ensures k == |Units| - 1 || n < Pow1024(k + 1)
    decreases |Units| - i
  {
    if n >= Pow1024(i) * 1024 && i < |Units| - 1 then UnitFrom(n, i + 1) else i
  }

  /** The unit index `fmtBytes` chooses for `n` bytes. */
  function UnitOf(n: int): (k: nat)
    ensures k < |Units|
    ensures k == 0 || Pow1024(k) <= n
    ensures k == |Units| - 1 || n < Pow1024(k + 1)
  {
    UnitFrom(n, 0)
  }

  /** The unit index is the largest k <= 4 with 1024^k <= n (0 when there is
      none): any index with that description is the one `UnitOf` returns. */
  lemma UnitOfUnique(n: int, k: nat)
    requires k < |Units|
    requires k == 0 || Pow1024(k) <= n
    requires k == |Units| - 1 || n < Pow1024(k + 1)
    ensures UnitOf(n) == k
  {
  }

  /** The integer nearest to `num / den`, halves rounded up: for a
      non-negative quotient, the rounding `Number.prototype.toFixed` applies
      to the exact value it is given (a negative half rounds away from zero
      there, and up here). */
  function RoundHalfUp(num: int, den: nat): (m: int)
    requires den > 0
    ensures 2 * den * m - den <= 2 * num < 2 * den * m + den
    ensures num >= 0 ==> m >= 0
    ensures den == 1 ==> m == num
  {
    (2 * num + den) / (2 * den)
  }

  /** The characters a number printed by `toFixed` is made of. */
  predicate NumberChars(s: string) {
    forall k :: 0 <= k < |s| ==> s[k] == '-' || s[k] == '.' || '0' <= s[k] <= '9'
  }

  /** `(num / den).toFixed(1)` for a non-negative quotient: digits, a point
      and one digit, reading back as the tenths nearest to `num / den`,
      halves rounded up. */
  function Fixed1(num: nat, den: nat): (text: string)
    requires den > 0
    ensures |text| >= 3 && text[|text| - 2] == '.' && NumberChars(text)
    ensures AllDigits(text[..|text| - 2]) && '0' <= text[|text| - 1] <= '9'
    ensures var tenths := DigitsValue(text[..|text| - 2]) * 10 + (text[|text| - 1] as int - '0' as int);
              2 * den * tenths - den <= 20 * num < 2 * den * tenths + den
  {
    var m := RoundHalfUp(10 * num, den);
    var whole := NatToString(m / 10);
    var text := whole + "." + [DigitChar(m % 10)];
    assert text[..|text| - 2] == whole;
    NatToStringRoundTrip(m / 10);
    text
  }

  /** `(num / den).toFixed(0)` for the quotients `fmtBytes` forms: either
      non-negative, or an integer divided by 1. The text reads back as the
      integer nearest to `num / den`, halves rounded up (for an integer, the
      integer itself). JavaScript rounds a negative half away from zero and
      can print "-0", so negative fractions are excluded. */
  function Fixed0(num: int, den: nat): (text: string)
    requires den > 0
    requires num >= 0 || den == 1
    ensures |text| > 0 && NumberChars(text)
    ensures num >= 0 ==> AllDigits(text) && var m := DigitsValue(text); 2 * den * m - den <= 2 * num < 2 * den * m + den
    ensures num < 0 ==> |text| > 0 && text[0] == '-' && AllDigits(text[1..]) && DigitsValue(text[1..]) == -num
  {
    var m := RoundHalfUp(num, den);
    var text := IntToString(m);
    if num >= 0 then NatToStringRoundTrip(m); text
    else
      assert text[1..] == NatToString(-num);
      NatToStringRoundTrip(-num);
      text
  }

  /** A number, a space and a unit: the text ends in the unit and has no "/"
      in it. */
  lemma UnitSuffix(number: string, i: nat)
    requires i < |Units| && |number| > 0 && NumberChars(number)
    ensures var text := number + " " + Units[i];
              && |text| > |Units[i]| + 1 && text[|text| - |Units[i]| - 1..] == " " + Units[i]
              && '/' !in text
  {
  }

  /** `fmtBytes(n)` for a byte count `n` (`None` for `null`/`undefined`). */
  function FmtBytes(n: Option<int>): (text: string)
    ensures n.None? ==> text == "0 B"
    ensures n.Some? ==> var u := Units[UnitOf(n.value)]; |text| > |u| + 1 && text[|text| - |u| - 1..] == " " + u
    ensures '/' !in text
  {
    if n.None? then "0 B"
    else
      var i := UnitOf(n.value);
      var d := Pow1024(i);
      var number := if i > 0 && n.value < 10 * d then Fixed1(n.value, d) else Fixed0(n.value, d);
      UnitSuffix(number, i);
      number + " " + Units[i]
  }

  /** The badge layout: `a` after an up arrow and `b` after a down arrow,
      each per second. */
  function RateText(a: string, b: string): string {
    "↑ " + a + "/s · ↓ " + b + "/s"
  }

  /** Two badges with parts free of "/" are equal only when their parts are. */
  lemma RateTextInjective(a1: string, b1: string, a2: string, b2: string)
    requires '/' !in a1 && '/' !in a2
    requires RateText(a1, b1) == RateText(a2, b2)
    ensures a1 == a2 && b1 == b2
  {
    var rest1, rest2 := "s · ↓ " + b1 + "/s", "s · ↓ " + b2 + "/s";
    assert RateText(a1, b1) == "↑ " + (a1 + ['/'] + rest1) + "";
    assert RateText(a2, b2) == "↑ " + (a2 + ['/'] + rest2) + "";
    SameFrame("↑ ", a1 + ['/'] + rest1, a2 + ['/'] + rest2, "");
    SplitAtMark(a1, rest1, a2, rest2, '/');
    SameFrame("s · ↓ ", b1, b2, "/s");
  }

  /** Reading badge `t` back: it opens with an up arrow, its first "/"
      closes the up part `a`, then comes "/s · ↓ ", the down part `b` and a
      closing "/s". */
  predicate ReadsBack(t: string, a: string, b: string) {
    && |t| >= 2
    && var k := 2 + IndexOf(t[2..], '/');
      && k == 2 + |a| && |t| == k + 9 + |b|
      && t[..2] == "↑ " && t[2..k] == a && t[k..k + 7] == "/s · ↓ "
      && t[k + 7..|t| - 2] == b && t[|t| - 2..] == "/s"
  }

  /** A badge whose up part has no "/" reads back as its two parts. */
  lemma RateTextReadBack(a: string, b: string)
    requires '/' !in a
    ensures ReadsBack(RateText(a, b), a, b)
  {
    var t := RateText(a, b);
    assert t[2..] == a + ['/'] + ("s · ↓ " + b + "/s");
    IndexOfAfter(a, '/', "s · ↓ " + b + "/s");
  }

  /** `fmtRate(up, down)`: the text of the rate badge, which reads back as
      the up rate's `fmtBytes` text and the down rate's. */
  function FmtRate(up: int, down: int): (text: string)
    ensures ReadsBack(text, FmtBytes(Some(up)), FmtBytes(Some(down)))
  {
    RateTextReadBack(FmtBytes(Some(up)), FmtBytes(Some(down)));
    RateText(FmtBytes(Some(up)), FmtBytes(Some(down)))
  }

  /** Both rates can be read back from the badge: equal badges show equal
      up texts and equal down texts. */
  lemma FmtRateInjective(up1: int, down1: int, up2: int, down2: int)
    ensures FmtRate(up1, down1) == FmtRate(up2, down2) ==>
              FmtBytes(Some(up1)) == FmtBytes(Some(up2)) && FmtBytes(Some(down1)) == FmtBytes(Some(down2))
  {
    if FmtRate(up1, down1) == FmtRate(up2, down2) {
      RateTextInjective(FmtBytes(Some(up1)), FmtBytes(Some(down1)), FmtBytes(Some(up2)), FmtBytes(Some(down2)));
    }
  }

  /** Counts below 1024 print as a plain integer of bytes. */
  lemma FmtBytesSmall(n: int)
    requires n < 1024
    ensures FmtBytes(Some(n)) == IntToString(n) + " B"
  {
    assert Pow1024(1) == 1024;
    UnitOfUnique(n, 0);
    assert Pow1024(0) == 1;
    assert RoundHalfUp(n, 1) == n;
  }

  /** Sample values below one kilobyte, and the missing count. */
  lemma FmtBytesSamplesBytes()
    ensures FmtBytes(None) == "0 B"
    ensures FmtBytes(Some(0)) == "0 B"
    ensures FmtBytes(Some(512)) == "512 B"
  {
    FmtBytesSmall(0);
    FmtBytesSmall(512);
    assert NatToString(512) == "512";
  }

  /** 1024 prints as "1.0 KB": below ten of the chosen unit one decimal is
      always shown, even when it is zero. */
  lemma FmtBytesSampleOneKb()
    ensures FmtBytes(Some(1024)) == "1.0 KB"
  {
    assert Pow1024(1) == 1024 && Pow1024(2) == 1048576;
    UnitOfUnique(1024, 1);
    assert RoundHalfUp(10240, 1024) == 10;
    assert NatToString(1) == "1";
  }

  lemma FmtBytesSampleTwoKb()
    ensures FmtBytes(Some(2048)) == "2.0 KB"
  {
    assert Pow1024(1) == 1024 && Pow1024(2) == 1048576;
    UnitOfUnique(2048, 1);
    assert RoundHalfUp(20480, 1024) == 20;
    assert NatToString(2) == "2";
  }

  lemma FmtBytesSampleHalfKb()
    ensures FmtBytes(Some(1536)) == "1.5 KB"
  {
    assert Pow1024(1) == 1024 && Pow1024(2) == 1048576;
    UnitOfUnique(1536, 1);
    assert RoundHalfUp(15360, 1024) == 15;
    assert NatToString(1) == "1";
  }

  /** From ten units up, no decimal is shown. */
  lemma FmtBytesSampleTwentyKb()
    ensures FmtBytes(Some(20480)) == "20 KB"
  {
    assert Pow1024(1) == 1024 && Pow1024(2) == 1048576;
    UnitOfUnique(20480, 1);
    assert RoundHalfUp(20480, 1024) == 20;
    assert NatToString(20) == "20";
  }

  lemma FmtBytesSampleOneMb()
    ensures FmtBytes(Some(1048576)) == "1.0 MB"
  {
    assert Pow1024(2) == 1048576 && Pow1024(3) == 1073741824;
    UnitOfUnique(1048576, 2);
    assert RoundHalfUp(10485760, 1048576) == 10;
    assert NatToString(1) == "1";
  }

  /** A timestamp as `fmtSince` receives it. `Falsy` covers `undefined`,
      `null`, `""` and `0`; otherwise `text` is `String(ts)` and `epochMs` is
      what `new Date(ts)` parses to, `None` when it is an invalid date. */
  datatype Stamp = Falsy | Given(text: string, epochMs: Option<int>)

  datatype AgeUnit = Seconds | Minutes | Hours

  /** What `fmtSince` shows. `LocalDate` stands for `toLocaleString()` of the
      timestamp, whose text depends on the browser's locale. */
  datatype Since = Dash | Verbatim(text: string) | Ago(count: int, unit: AgeUnit) | LocalDate(epochMs: int)

  function UnitMs(u: AgeUnit): nat {
    match u
    case Seconds => 1000
    case Minutes => 60 * 1000
    case Hours => 3600 * 1000
  }

  /** The elapsed time (ms) at which the next band starts. */
  function BandEndMs(u: AgeUnit): nat {
    match u
    case Seconds => 60 * 1000
    case Minutes => 3600 * 1000
    case Hours => 86400 * 1000
  }

  /** `count` whole units have passed in `elapsedMs`, and `unit` is the band
      `elapsedMs` falls in. */
  ghost predicate InBand(elapsedMs: int, count: int, unit: AgeUnit) {
    && count * UnitMs(unit) <= elapsedMs < (count + 1) * UnitMs(unit)
    && elapsedMs < BandEndMs(unit)
    && (unit.Minutes? ==> BandEndMs(Seconds) <= elapsedMs)
    && (unit.Hours? ==> BandEndMs(Minutes) <= elapsedMs)
  }

  /** `fmtSince(ts)` at clock reading `nowMs`. The source computes
      `diff = (Date.now() - t) / 1000` in seconds; with integer milliseconds,
      `Math.floor(diff / k)` is `(nowMs - t) / (1000 * k)` rounded down. */
  function FmtSince(ts: Stamp, nowMs: int): (r: Since)
    ensures ts.Falsy? <==> r.Dash?
    ensures ts.Given? && ts.epochMs.None? <==> r.Verbatim?
    ensures r.Verbatim? ==> r.text == ts.text
    ensures r.Ago? ==> ts.Given? && ts.epochMs.Some? && InBand(nowMs - ts.epochMs.value, r.count, r.unit)
    ensures r.LocalDate? <==> ts.Given? && ts.epochMs.Some? && nowMs - ts.epochMs.value >= BandEndMs(Hours)
    ensures r.LocalDate? ==> r.epochMs == ts.epochMs.value
  {
    match ts
    case Falsy => Dash
    case Given(text, None) => Verbatim(text)
    case Given(_, Some(t)) =>
      var elapsed := nowMs - t;
      if elapsed < 60 * 1000 then
        FloorInBand(elapsed, Seconds);
        Ago(elapsed / 1000, Seconds)
      else if elapsed < 3600 * 1000 then
        FloorInBand(elapsed, Minutes);
        Ago(elapsed / (60 * 1000), Minutes)
      else if elapsed < 86400 * 1000 then
        FloorInBand(elapsed, Hours);
        Ago(elapsed / (3600 * 1000), Hours)
      else LocalDate(t)
  }

  /** Inside a band, the floored count of its unit describes the elapsed time. */
  lemma FloorInBand(elapsedMs: int, unit: AgeUnit)
    requires elapsedMs < BandEndMs(unit)
    requires unit.Minutes? ==> BandEndMs(Seconds) <= elapsedMs
    requires unit.Hours? ==> BandEndMs(Minutes) <= elapsedMs
    ensures InBand(elapsedMs, elapsedMs / UnitMs(unit), unit)
  {
    var d := UnitMs(unit);
    var q := elapsedMs / d;
    assert elapsedMs == q * d + elapsedMs % d && 0 <= elapsedMs % d < d;
    assert (q + 1) * d == q * d + d;
  }

  /** The band and count of a relative age are determined by the elapsed
      time: at most one (count, unit) pair describes it. */
  lemma InBandUnique(elapsedMs: int, c1: int, u1: AgeUnit, c2: int, u2: AgeUnit)
    requires InBand(elapsedMs, c1, u1) && InBand(elapsedMs, c2, u2)
    ensures c1 == c2 && u1 == u2
  {
  }

  function UnitWord(u: AgeUnit): string {
    match u
    case Seconds => "сек"
    case Minutes => "мин"
    case Hours => "ч"
  }

  /** The text of a relative age, e.g. "5 мин". */
  function AgoText(count: int, unit: AgeUnit): string {
    IntToString(count) + " " + UnitWord(unit)
  }

  /** Different relative ages never print the same. */
  lemma AgoTextInjective(c1: int, u1: AgeUnit, c2: int, u2: AgeUnit)
    requires AgoText(c1, u1) == AgoText(c2, u2)
    ensures c1 == c2 && u1 == u2
  {
    var a, b := IntToString(c1), IntToString(c2);
    SplitAtMark(a, UnitWord(u1), b, UnitWord(u2), ' ');
    IntToStringInjective(c1, c2);
  }

  /** Sample ages: 30 s, 90 s, 7200 s and 90000 s before now. */
  lemma FmtSinceSamples(t: int)
    ensures FmtSince(Given("x", Some(t)), t + 30 * 1000) == Ago(30, Seconds)
    ensures FmtSince(Given("x", Some(t)), t + 90 * 1000) == Ago(1, Minutes)
    ensures FmtSince(Given("x", Some(t)), t + 7200 * 1000) == Ago(2, Hours)
    ensures FmtSince(Given("x", Some(t)), t + 90000 * 1000) == LocalDate(t)
  {
  }

  /** The text `fmtSince` returns for each outcome; `None` for the local date,
      whose text depends on the browser's locale. */
  function SinceText(r: Since): (text: Option<string>)
    ensures text.None? <==> r.LocalDate?
    ensures r.Dash? ==> text == Some("—")
    ensures r.Verbatim? ==> text == Some(r.text)
    ensures r.Ago? ==> text == Some(AgoText(r.count, r.unit))
  {
    match r
    case Dash => Some("—")
    case Verbatim(t) => Some(t)
    case Ago(count, unit) => Some(AgoText(count, unit))
    case LocalDate(_) => None
  }

  /** The printed ages for a few elapsed times. */
  lemma FmtSinceTextSamples(t: int)
    ensures SinceText(FmtSince(Falsy, t)) == Some("—")
    ensures SinceText(FmtSince(Given("x", None), t)) == Some("x")
    ensures SinceText(FmtSince(Given("x", Some(t)), t + 30 * 1000)) == Some("30 сек")
    ensures SinceText(FmtSince(Given("x", Some(t)), t + 90 * 1000)) == Some("1 мин")
    ensures SinceText(FmtSince(Given("x", Some(t)), t + 7200 * 1000)) == Some("2 ч")
  {
    FmtSinceSamples(t);
    assert NatToString(30) == NatToString(3) + [DigitChar(0)] == "30";
    assert IntToString(1) == "1" && IntToString(2) == "2";
    assert AgoText(30, Seconds) == "30" + " " + "сек" == "30 сек";
    assert AgoText(1, Minutes) == "1" + " " + "мин" == "1 мин";
    assert AgoText(2, Hours) == "2" + " " + "ч" == "2 ч";
  }
}

=== FILE: panel.dfy ===
/** The dashboard page's stored credentials, its login handler and its two
    action buttons (rotate, restart), from panel.js. */
module Panel {
  import opened Wrappers
  import opened Text
  import opened Browser

  /** The `localStorage` key for the encoded credentials. */
  const LsKey: string := "panel_basic_b64"

  /** `getAuthB64()`: the `localStorage` value when it is non-empty, else the
      `sessionStorage` value, else "". */
  function GetAuthB64(st: Storage): (b64: string)
    ensures ItemOrEmpty(st.local, LsKey) != "" ==> b64 == st.local[LsKey]
    ensures ItemOrEmpty(st.local, LsKey) == "" ==> b64 == ItemOrEmpty(st.session, PanelAuthKey)
  {
    var fromLocal := ItemOrEmpty(st.local, LsKey);
    if fromLocal != "" then fromLocal else ItemOrEmpty(st.session, PanelAuthKey)
  }

  /** `setAuth(user, pass)`: writes `btoa("user:pass")` under both keys;
      `None` when `btoa` throws, in which case nothing has been written. */
  function SetAuth(st: Storage, encode: string -> string, user: string, pass: string): (r: Option<Storage>)
    ensures r.Some? <==> Latin1(Credential(user, pass))
    ensures r.Some? ==> GetAuthB64(r.value) == encode(Credential(user, pass))
    ensures r.Some? ==> r.value.local == st.local[LsKey := encode(Credential(user, pass))]
    ensures r.Some? ==> r.value.session == st.session[PanelAuthKey := encode(Credential(user, pass))]
    ensures r.Some? ==> r.value.local - {LsKey} == st.local - {LsKey}
    ensures r.Some? ==> r.value.session - {PanelAuthKey} == st.session - {PanelAuthKey}
  {
    match Btoa(encode, Credential(user, pass))
    case None => None
    case Some(b64) => Some(Storage(st.local[LsKey := b64], st.session[PanelAuthKey := b64]))
  }

  /** `clearAuth()`: removes both keys. */
  function ClearAuth(st: Storage): (r: Storage)
    ensures GetAuthB64(r) == ""
    ensures LsKey !in r.local && PanelAuthKey !in r.session
    ensures r.local - {LsKey} == st.local - {LsKey}
    ensures r.session - {PanelAuthKey} == st.session - {PanelAuthKey}
  {
    Storage(st.local - {LsKey}, st.session - {PanelAuthKey})
  }

  /** Storing and then clearing leaves no credentials behind. */
  lemma SetThenClear(st: Storage, encode: string -> string, user: string, pass: string)
    requires SetAuth(st, encode, user, pass).Some?
    ensures GetAuthB64(ClearAuth(SetAuth(st, encode, user, pass).value)) == ""
    ensures ClearAuth(SetAuth(st, encode, user, pass).value) == ClearAuth(st)
  {
  }

  /** What the login button does: the storage afterwards, the notice shown,
      whether the login dialog is hidden, and whether `fetchAll()` is called
      to re-fetch the phone and client lists. */
  datatype LoginOutcome = LoginOutcome(storage: Storage, notice: Option<Notice>, hidesLogin: bool, refetches: bool)

  /** The login button (`doLogin`). The user name is trimmed, the password is
      not; `testAuth` always resolves `true`, so a stored credential always
      counts as a successful login. `userField`/`passField` are `None` when
      the input is missing. */
  function Login(st: Storage, encode: string -> string, userField: Option<string>, passField: Option<string>): (r: LoginOutcome)
    ensures var u := Trim(userField.GetOr("")); var p := passField.GetOr("");
      && ((u == "" || p == "") ==> r == LoginOutcome(st, Some(Notice("Введите логин и пароль", true)), false, false))
      && ((u != "" && p != "" && Latin1(Credential(u, p))) ==>
            GetAuthB64(r.storage) == encode(Credential(u, p)) && r.hidesLogin && r.refetches
            && r.notice == Some(Notice("Вход выполнен", false)))
      && ((u != "" && p != "" && Latin1(Credential(u, p))) ==>
            r == LoginOutcome(SetAuth(st, encode, u, p).value, Some(Notice("Вход выполнен", false)), true, true))
      && (!Latin1(Credential(u, p)) ==> r.storage == st && !r.refetches)
      && ((u != "" && p != "" && !Latin1(Credential(u, p))) ==> r == LoginOutcome(st, None, false, false))
  {
    var u := Trim(userField.GetOr(""));
    var p := passField.GetOr("");
    if u == "" || p == "" then LoginOutcome(st, Some(Notice("Введите логин и пароль", true)), false, false)
    else
      match SetAuth(st, encode, u, p)
      case None => LoginOutcome(st, None, false, false)
      case Some(st') => LoginOutcome(st', Some(Notice("Вход выполнен", false)), true, true)
  }

  /** The URL the rotate button requests: the stored token, trimmed, is passed
      as the `token` query parameter (through the opaque
      `encodeURIComponent`) when it is non-empty. */
  function RotateUrl(st: Storage, encodeUri: string -> string): (url: string)
    ensures Trim(ItemOrEmpty(st.local, RotateTokenKey)) == "" ==> url == "/rotate"
    ensures Trim(ItemOrEmpty(st.local, RotateTokenKey)) != "" ==>
              url == "/rotate?token=" + encodeUri(Trim(ItemOrEmpty(st.local, RotateTokenKey)))
  {
    var tok := Trim(ItemOrEmpty(st.local, RotateTokenKey));
    if tok != "" then "/rotate?token=" + encodeUri(tok) else "/rotate"
  }

  /** The JSON body of `/rotate` as the handler reads it: whether `data.ok` is
      truthy, `data.changed?.length`, and `data.error`. */
  datatype RotateData = RotateData(ok: bool, changedCount: Option<nat>, error: Option<string>)

  /** What the rotate handler does with the reply: the notice shown, and
      whether it goes on to refresh the phone list. */
  datatype ActionOutcome = ActionOutcome(notice: Notice, refreshesPhones: bool)

  /** `data.error || fallback`. */
  function ErrorOr(error: Option<string>, fallback: string): (text: string)
    ensures error.Some? && error.value != "" ==> text == error.value
    ensures error.None? || error.value == "" ==> text == fallback
  {
    if error.Some? && error.value != "" then error.value else fallback
  }

  /** The rotate button's handling of the response to `RotateUrl`. */
  function RotateOutcome(reply: Fetched<RotateData>): (r: ActionOutcome)
    ensures r.refreshesPhones <==> reply.Response? && IsOk(reply.status) && reply.body.Parsed?
    ensures !r.notice.isError <==> reply.Response? && IsOk(reply.status) && reply.body.Parsed? && reply.body.data.ok
    ensures reply.Response? && !IsOk(reply.status) ==> r.notice.text == ErrorText("/rotate http " + IntToString(reply.status))
    ensures !r.notice.isError ==> r.notice.text == "IP сменён у: " + NatToString(reply.body.data.changedCount.GetOr(0))
    ensures reply.Response? && IsOk(reply.status) && reply.body.Parsed? && !reply.body.data.ok ==>
              r.notice.text == "Ошибка: " + ErrorOr(reply.body.data.error, "rotate failed")
    ensures reply.NetworkFailure? ==> r.notice == Notice(reply.errorText, true)
    ensures reply.Response? && IsOk(reply.status) && reply.body.Malformed? ==> r.notice == Notice(reply.body.errorText, true)
  {
    match reply
    case NetworkFailure(e) => ActionOutcome(Notice(e, true), false)
    case Response(status, body) =>
      if !IsOk(status) then ActionOutcome(Notice(ErrorText("/rotate http " + IntToString(status)), true), false)
      else match body
        case Malformed(e) => ActionOutcome(Notice(e, true), false)
        case Parsed(data) =>
          if data.ok then ActionOutcome(Notice("IP сменён у: " + NatToString(data.changedCount.GetOr(0)), false), true)
          else ActionOutcome(Notice("Ошибка: " + ErrorOr(data.error, "rotate failed"), true), true)
  }

  /** The JSON body of `/restart`: whether `data.ok` is truthy, `data.status`
      and `data.error`. */
  datatype RestartData = RestartData(ok: bool, status: Option<string>, error: Option<string>)

  /** The notice the restart button shows for a reply to `POST /restart`.
      Either reply shape counts as success: a truthy `ok`, or `status` equal
      to "restarted". */
  function RestartNotice(reply: Fetched<RestartData>): (n: Notice)
    ensures !n.isError <==> reply.Response? && IsOk(reply.status) && reply.body.Parsed?
                            && (reply.body.data.ok || reply.body.data.status == Some("restarted"))
    ensures !n.isError ==> n.text == "Рестарт инициирован"
    ensures reply.Response? && !IsOk(reply.status) ==> n.text == ErrorText("/restart http " + IntToString(reply.status))
    ensures reply.Response? && IsOk(reply.status) && reply.body.Parsed?
            && !reply.body.data.ok && reply.body.data.status != Some("restarted") ==>
              n.text == "Ошибка: " + ErrorOr(reply.body.data.error, "restart failed")
    ensures reply.NetworkFailure? ==> n == Notice(reply.errorText, true)
    ensures reply.Response? && IsOk(reply.status) && reply.body.Malformed? ==> n == Notice(reply.body.errorText, true)
  {
    match reply
    case NetworkFailure(e) => Notice(e, true)
    case Response(status, body) =>
      if !IsOk(status) then Notice(ErrorText("/restart http " + IntToString(status)), true)
      else match body
        case Malformed(e) => Notice(e, true)
        case Parsed(data) =>
          if data.ok || data.status == Some("restarted") then Notice("Рестарт инициирован", false)
          else Notice("Ошибка: " + ErrorOr(data.error, "restart failed"), true)
  }

  /** Both action buttons report a failed request as an error: a network
      failure or a non-2xx status always ends in an error notice, and the
      phone list is not refreshed; a success notice only follows a parsed 2xx
      reply. */
  lemma ActionFailuresAreErrors(rotate: Fetched<RotateData>, restart: Fetched<RestartData>)
    ensures rotate.NetworkFailure? || (rotate.Response? && !IsOk(rotate.status)) ==>
              RotateOutcome(rotate).notice.isError && !RotateOutcome(rotate).refreshesPhones
    ensures restart.NetworkFailure? || (restart.Response? && !IsOk(restart.status)) ==> RestartNotice(restart).isError
    ensures !RotateOutcome(rotate).notice.isError ==> rotate.Response? && IsOk(rotate.status) && rotate.body.Parsed?
    ensures !RestartNotice(restart).isError ==> restart.Response? && IsOk(restart.status) && restart.body.Parsed?
  {
  }
}

=== FILE: seqs.dfy ===
/** Sequence filtering and summation: `Array.prototype.filter` and the
    accumulate-in-a-loop sums of the client table. */
module Seqs {

  /** `idx` lists, in increasing order, positions of `b` holding the elements
      of `a`: `a` is `b` with some elements deleted and the rest kept in order. */
  ghost predicate Embeds<T>(a: seq<T>, b: seq<T>, idx: seq<nat>) {
    && |idx| == |a|
    && (forall k :: 0 <= k < |idx| ==> idx[k] < |b| && a[k] == b[idx[k]])
    && (forall k, l :: 0 <= k < l < |idx| ==> idx[k] < idx[l])
  }

  /** `a` is an order-preserving subsequence of `b`. */
  ghost predicate IsSubsequence<T>(a: seq<T>, b: seq<T>) {
    exists idx :: Embeds(a, b, idx)
  }

  /** `s.filter(keep)`. */
  function Filter<T(==)>(s: seq<T>, keep: T -> bool): (r: seq<T>)
    ensures |r| <= |s|
    ensures forall k :: 0 <= k < |r| ==> r[k] in s && keep(r[k])
    ensures forall k :: 0 <= k < |s| && keep(s[k]) ==> s[k] in r
  {
    if s == [] then []
    else (if keep(s[0]) then [s[0]] else []) + Filter(s[1..], keep)
  }

  /** Every position moved one place to the right. */
  function Shift(idx: seq<nat>): (r: seq<nat>)
    ensures |r| == |idx|
    ensures forall k :: 0 <= k < |r| ==> r[k] == idx[k] + 1
  {
    seq(|idx|, k requires 0 <= k < |idx| => idx[k] + 1)
  }

  /** A filter keeps the surviving elements in their original order: the
      positions it keeps embed its result in `s`. */
  lemma {:induction false} FilterIsSubsequence<T>(s: seq<T>, keep: T -> bool)
    ensures IsSubsequence(Filter(s, keep), s)
  {
    var idx := KeptPositions(s, keep);
  }

  /** An embedding into the tail of `b` is an embedding into `b`, one
      position further right. */
  lemma EmbedsInTail<T>(a: seq<T>, b: seq<T>, idx: seq<nat>)
    requires |b| > 0 && Embeds(a, b[1..], idx)
    ensures Embeds(a, b, Shift(idx))
  {
  }

  /** Keeping the head as well: position 0 goes in front. */
  lemma EmbedsWithHead<T>(a: seq<T>, b: seq<T>, idx: seq<nat>)
    requires |b| > 0 && Embeds(a, b, idx)
    requires forall k :: 0 <= k < |idx| ==> idx[k] > 0
    ensures Embeds([b[0]] + a, b, [0] + idx)
  {
  }

  /** The positions of `s` that `Filter` keeps. */
  lemma {:induction false} KeptPositions<T>(s: seq<T>, keep: T -> bool) returns (idx: seq<nat>)
    ensures Embeds(Filter(s, keep), s, idx)
  {
    if s == [] {
      idx := [];
    } else {
      var tail := KeptPositions(s[1..], keep);
      EmbedsInTail(Filter(s[1..], keep), s, tail);
      if keep(s[0]) {
        EmbedsWithHead(Filter(s[1..], keep), s, Shift(tail));
        idx := [0] + Shift(tail);
      } else {
        idx := Shift(tail);
      }
    }
  }

  /** A filter that rejects nothing changes nothing. */
  lemma {:induction false} FilterKeepsAll<T>(s: seq<T>, keep: T -> bool)
    requires forall k :: 0 <= k < |s| ==> keep(s[k])
    ensures Filter(s, keep) == s
  {
    if s != [] {
      FilterKeepsAll(s[1..], keep);
      assert [s[0]] + s[1..] == s;
    }
  }

  /** Filtering twice is filtering once by both conditions. */
  lemma {:induction false} FilterTwice<T>(s: seq<T>, p: T -> bool, q: T -> bool, both: T -> bool)
    requires forall x :: both(x) == (p(x) && q(x))
    ensures Filter(Filter(s, p), q) == Filter(s, both)
  {
    if s != [] {
      FilterTwice(s[1..], p, q, both);
      var head := if p(s[0]) then [s[0]] else [];
      FilterAppend(head, Filter(s[1..], p), q);
    }
  }

  /** Filtering distributes over concatenation. */
  lemma {:induction false} FilterAppend<T>(a: seq<T>, b: seq<T>, keep: T -> bool)
    ensures Filter(a + b, keep) == Filter(a, keep) + Filter(b, keep)
  {
    if a != [] {
      FilterAppend(a[1..], b, keep);
      assert (a + b)[1..] == a[1..] + b;
    } else {
      assert a + b == b;
    }
  }

  /** The sum of `f` over the elements of `s`. */
  function Sum<T>(s: seq<T>, f: T -> int): int {
    if s == [] then 0 else f(s[0]) + Sum(s[1..], f)
  }

  /** The sum of `f` over the elements of `s` that satisfy `keep`; the others
      contribute nothing. */
  function SumWhere<T>(s: seq<T>, keep: T -> bool, f: T -> int): int {
    if s == [] then 0 else (if keep(s[0]) then f(s[0]) else 0) + SumWhere(s[1..], keep, f)
  }

  /** A sum extends one element at a time, as a running total does. */
  lemma {:induction false} SumSnoc<T>(s: seq<T>, x: T, f: T -> int)
    ensures Sum(s + [x], f) == Sum(s, f) + f(x)
  {
    if s == [] {
      assert s + [x] == [x];
    } else {
      assert (s + [x])[1..] == s[1..] + [x];
      SumSnoc(s[1..], x, f);
    }
  }

  /** Summing over the filtered rows is summing over all rows with the
      rejected ones counted as zero. */
  lemma {:induction false} SumOfFilter<T>(s: seq<T>, keep: T -> bool, f: T -> int)
    ensures Sum(Filter(s, keep), f) == SumWhere(s, keep, f)
  {
    if s != [] {
      SumOfFilter(s[1..], keep, f);
      var head := if keep(s[0]) then [s[0]] else [];
      assert Filter(s, keep) == head + Filter(s[1..], keep);
      if keep(s[0]) {
        assert (head + Filter(s[1..], keep))[1..] == Filter(s[1..], keep);
      } else {
        assert head + Filter(s[1..], keep) == Filter(s[1..], keep);
      }
    }
  }
}

=== FILE: settings.dfy ===
/** The settings page (settings.js): the panel credentials kept in
    `sessionStorage`, the `Authorization` header built from them, the
    classification of API responses, the rotation token, the two
    save-credentials forms and the login button. */
module Settings {
  import opened Wrappers
  import opened Text
  import opened Browser

  /** `getPanelAuth()`. */
  function GetPanelAuth(st: Storage): (token: string)
    ensures PanelAuthKey in st.session ==> token == st.session[PanelAuthKey]
    ensures PanelAuthKey !in st.session ==> token == ""
  {
    ItemOrEmpty(st.session, PanelAuthKey)
  }

  /** `setPanelAuth(user, pass)`: `None` when `btoa` throws and nothing is
      stored. */
  function SetPanelAuth(st: Storage, encode: string -> string, user: string, pass: string): (r: Option<Storage>)
    ensures r.Some? <==> Latin1(Credential(user, pass))
    ensures r.Some? ==> GetPanelAuth(r.value) == encode(Credential(user, pass))
    ensures r.Some? ==> r.value.local == st.local && r.value.session - {PanelAuthKey} == st.session - {PanelAuthKey}
  {
    match Btoa(encode, Credential(user, pass))
    case None => None
    case Some(token) => Some(st.(session := st.session[PanelAuthKey := token]))
  }

  /** `clearPanelAuth()`. */
  function ClearPanelAuth(st: Storage): (r: Storage)
    ensures GetPanelAuth(r) == ""
    ensures r.local == st.local && r.session - {PanelAuthKey} == st.session - {PanelAuthKey}
  {
    st.(session := st.session - {PanelAuthKey})
  }

  /** `getAuthHeader()`: no header without a stored token, otherwise exactly a
      Basic `Authorization` header carrying it. */
  function GetAuthHeader(st: Storage): (headers: map<string, string>)
    ensures GetPanelAuth(st) == "" ==> headers == map[]
    ensures GetPanelAuth(st) != "" ==> headers.Keys == {"Authorization"} && headers["Authorization"] == "Basic " + GetPanelAuth(st)
  {
    var tok := GetPanelAuth(st);
    if tok != "" then map["Authorization" := "Basic " + tok] else map[]
  }

  /** After a successful `setPanelAuth`, requests carry the new credentials;
      after `clearPanelAuth` they carry none. */
  lemma HeaderAfterSetAndClear(st: Storage, encode: string -> string, user: string, pass: string)
    requires SetPanelAuth(st, encode, user, pass).Some?
    requires encode(Credential(user, pass)) != ""
    ensures GetAuthHeader(SetPanelAuth(st, encode, user, pass).value) ==
              map["Authorization" := "Basic " + encode(Credential(user, pass))]
    ensures GetAuthHeader(ClearPanelAuth(st)) == map[]
  {
  }

  /** A reply to `apiGet`/`apiPost`: `NoResponse` when `fetch` rejects;
      otherwise the status, the body text (`None` when reading it fails) and
      whether the body parses as JSON. */
  datatype ApiReply = NoResponse | Replied(status: int, text: Option<string>, jsonValid: bool)

  /** What `handleJsonResponse` decides: parse the body, or throw an error with
      `message`, having opened the login dialog when `opensLogin`. */
  datatype Handling = ParseBody | Reject(message: string, opensLogin: bool)

  /** `handleJsonResponse(r)` for a response with `status` and body text `text`. */
  function HandleJsonResponse(status: int, text: Option<string>): (h: Handling)
    ensures h.ParseBody? <==> IsOk(status)
    ensures h.Reject? ==> (h.opensLogin <==> status == 401) && h.message != ""
    ensures status == 401 ==> h.message == "401"
    ensures h.Reject? && status != 401 && text.Some? && text.value != "" ==> h.message == text.value
    ensures h.Reject? && status != 401 && (text.None? || text.value == "") ==> h.message == "HTTP " + IntToString(status)
  {
    if status == 401 then Reject("401", true)
    else if !IsOk(status) then
      var t := text.GetOr("");
      Reject(if t != "" then t else "HTTP " + IntToString(status), false)
    else ParseBody
  }

  /** `apiGet`/`apiPost` resolve (rather than throw): `handleJsonResponse`
      went on to parse the body, and it parsed. */
  function ApiSucceeded(reply: ApiReply): (ok: bool)
    ensures ok <==> reply.Replied? && IsOk(reply.status) && reply.jsonValid
  {
    reply.Replied? && HandleJsonResponse(reply.status, reply.text).ParseBody? && reply.jsonValid
  }

  /** The request opened the login dialog (a 401). */
  predicate ApiOpensLogin(reply: ApiReply) {
    reply.Replied? && reply.status == 401
  }

  /** The outcome of `ensureAuthOrAsk`'s probe of `/status`: `None` when the
      request fails. */
  function EnsureAuth(probeStatus: Option<int>): (authorised: bool)
    ensures !authorised <==> probeStatus.None? || probeStatus.value == 401
  {
    match probeStatus
    case None => false
    case Some(status) => status != 401
  }

  /** The `/status` probe and `handleJsonResponse` agree on which responses
      ask for a login: exactly the 401s. A response `handleJsonResponse`
      goes on to parse also passes the probe. */
  lemma ProbeAgreesWithApi(status: int, text: Option<string>)
    ensures !EnsureAuth(Some(status)) <==> HandleJsonResponse(status, text).Reject? && HandleJsonResponse(status, text).opensLogin
    ensures HandleJsonResponse(status, text).ParseBody? ==> EnsureAuth(Some(status))
  {
  }

  /** `loadRotateToken()`: the text placed in the token field. */
  function LoadRotateToken(st: Storage): (tok: string)
    ensures RotateTokenKey in st.local ==> tok == st.local[RotateTokenKey]
    ensures RotateTokenKey !in st.local ==> tok == ""
  {
    ItemOrEmpty(st.local, RotateTokenKey)
  }

  /** The effect of a button: new storage and the notice shown. */
  datatype Effect = Effect(storage: Storage, notice: Notice)

  /** `saveRotateToken()` with the token field holding `field` (`None` when
      the field is missing). */
  function SaveRotateToken(st: Storage, field: Option<string>): (r: Effect)
    ensures Trim(field.GetOr("")) == "" ==> r == Effect(st, Notice("Токен пустой", true))
    ensures Trim(field.GetOr("")) != "" ==>
              && LoadRotateToken(r.storage) == Trim(field.GetOr(""))
              && r.storage.session == st.session
              && r.storage.local - {RotateTokenKey} == st.local - {RotateTokenKey}
              && r.notice == Notice("rotate_token сохранён", false)
  {
    var tok := Trim(field.GetOr(""));
    if tok == "" then Effect(st, Notice("Токен пустой", true))
    else Effect(st.(local := st.local[RotateTokenKey := tok]), Notice("rotate_token сохранён", false))
  }

  /** What `clearRotateToken()` did: its effect, and the token field's new
      content (`None` when the field is missing). */
  datatype Cleared = Cleared(effect: Effect, field: Option<string>)

  /** `clearRotateToken()`. */
  function ClearRotateToken(st: Storage, field: Option<string>): (r: Cleared)
    ensures RotateTokenKey !in r.effect.storage.local && LoadRotateToken(r.effect.storage) == ""
    ensures r.effect.storage.session == st.session
    ensures r.effect.storage.local - {RotateTokenKey} == st.local - {RotateTokenKey}
    ensures r.field.Some? <==> field.Some?
    ensures r.field.Some? ==> r.field.value == ""
    ensures r.effect.notice == Notice("rotate_token очищен", false)
  {
    Cleared(Effect(st.(local := st.local - {RotateTokenKey}), Notice("rotate_token очищен", false)),
            if field.Some? then Some("") else None)
  }

  /** Saving a token and loading it back gives the token without its
      surrounding whitespace; a second save of the loaded text changes nothing. */
  lemma RotateTokenRoundTrip(st: Storage, field: string)
    requires Trim(field) != ""
    ensures LoadRotateToken(SaveRotateToken(st, Some(field)).storage) == Trim(field)
    ensures var st' := SaveRotateToken(st, Some(field)).storage;
      SaveRotateToken(st', Some(LoadRotateToken(st'))).storage == st'
  {
    TrimIdempotent(field);
  }

  /** The body of `POST /auth/{proxy,panel}/set`. */
  datatype CredsRequest = CredsRequest(path: string, user: string, pass: string)

  /** What a save-credentials button did: the storage afterwards, the request
      it sent (if any), the notices in the order shown (the last one stays on
      screen), and whether a 401 opened the login dialog. */
  datatype SaveOutcome = SaveOutcome(storage: Storage, request: Option<CredsRequest>, notices: seq<Notice>, opensLogin: bool)

  /** `saveProxyCreds()`: both fields trimmed; nothing is sent when both are
      empty; the proxy credentials are not stored in the browser. */
  function SaveProxyCreds(st: Storage, userField: string, passField: string, reply: ApiReply): (r: SaveOutcome)
    ensures r.storage == st
    ensures r.request.None? <==> Trim(userField) == "" && Trim(passField) == ""
    ensures r.request.None? ==> r.notices == [Notice("Нечего сохранять", true)] && !r.opensLogin
    ensures r.request.Some? ==> r.request.value == CredsRequest("/auth/proxy/set", Trim(userField), Trim(passField))
    ensures r.request.Some? ==> |r.notices| == 1 && (r.notices[0].isError <==> !ApiSucceeded(reply))
    ensures r.request.Some? && ApiSucceeded(reply) ==> r.notices == [Notice("Прокси-учётки сохранены", false)]
    ensures r.request.Some? && !ApiSucceeded(reply) ==> r.notices == [Notice("Ошибка сохранения прокси-учёток", true)]
    ensures r.opensLogin <==> r.request.Some? && ApiOpensLogin(reply)
  {
    var user := Trim(userField);
    var pass := Trim(passField);
    if user == "" && pass == "" then SaveOutcome(st, None, [Notice("Нечего сохранять", true)], false)
    else
      var notice := if ApiSucceeded(reply) then Notice("Прокси-учётки сохранены", false)
                    else Notice("Ошибка сохранения прокси-учёток", true);
      SaveOutcome(st, Some(CredsRequest("/auth/proxy/set", user, pass)), [notice], ApiOpensLogin(reply))
  }

  const PanelSaveFailed: Notice := Notice("Ошибка сохранения учёток панели", true)

  /** `savePanelCreds()`: like the proxy form, but after a successful POST with
      both fields non-empty the stored panel credentials are replaced. When
      `btoa` then throws, the catch block shows the failure notice after the
      success notice. */
  function SavePanelCreds(st: Storage, encode: string -> string, userField: string, passField: string, reply: ApiReply): (r: SaveOutcome)
    ensures r.request.None? <==> Trim(userField) == "" && Trim(passField) == ""
    ensures r.request.None? ==> r.storage == st && r.notices == [Notice("Нечего сохранять", true)]
    ensures r.request.Some? ==> r.request.value == CredsRequest("/auth/panel/set", Trim(userField), Trim(passField))
    ensures r.storage != st ==>
              && ApiSucceeded(reply) && Trim(userField) != "" && Trim(passField) != ""
              && GetPanelAuth(r.storage) == encode(Credential(Trim(userField), Trim(passField)))
    ensures ApiSucceeded(reply) && Trim(userField) != "" && Trim(passField) != ""
              && Latin1(Credential(Trim(userField), Trim(passField))) ==>
              GetPanelAuth(r.storage) == encode(Credential(Trim(userField), Trim(passField)))
    ensures 1 <= |r.notices| <= 2
    ensures r.request.Some? ==> (r.notices[|r.notices| - 1].isError <==>
              !ApiSucceeded(reply) || (Trim(userField) != "" && Trim(passField) != ""
                                       && !Latin1(Credential(Trim(userField), Trim(passField)))))
    ensures r.opensLogin <==> r.request.Some? && ApiOpensLogin(reply)
    ensures r.storage.local == st.local && r.storage.session - {PanelAuthKey} == st.session - {PanelAuthKey}
    ensures r.request.Some? && !ApiSucceeded(reply) ==> r.storage == st && r.notices == [PanelSaveFailed]
    ensures r.request.Some? && ApiSucceeded(reply) ==> r.notices[0] == Notice("Учётки панели сохранены", false)
    ensures r.request.Some? && ApiSucceeded(reply) && (Trim(userField) == "" || Trim(passField) == "") ==>
              r.storage == st && |r.notices| == 1
    ensures ApiSucceeded(reply) && Trim(userField) != "" && Trim(passField) != "" ==>
              var cred := Credential(Trim(userField), Trim(passField));
              && (Latin1(cred) ==> r.storage == SetPanelAuth(st, encode, Trim(userField), Trim(passField)).value
                                   && |r.notices| == 1)
              && (!Latin1(cred) ==> r.storage == st && r.notices == [Notice("Учётки панели сохранены", false), PanelSaveFailed])
  {
    var user := Trim(userField);
    var pass := Trim(passField);
    if user == "" && pass == "" then SaveOutcome(st, None, [Notice("Нечего сохранять", true)], false)
    else
      var request := Some(CredsRequest("/auth/panel/set", user, pass));
      if !ApiSucceeded(reply) then SaveOutcome(st, request, [PanelSaveFailed], ApiOpensLogin(reply))
      else
        var saved := Notice("Учётки панели сохранены", false);
        if user == "" || pass == "" then SaveOutcome(st, request, [saved], false)
        else match SetPanelAuth(st, encode, user, pass)
          case None => SaveOutcome(st, request, [saved, PanelSaveFailed], false)
          case Some(st') => SaveOutcome(st', request, [saved], false)
  }

  /** What the login button did: the storage afterwards, the notice shown,
      whether the login dialog is closed, and whether `loadAll()` is called to
      re-fetch the page's data (the `/status` probe, the two credential
      requests and the rotation token). */
  datatype LoginOutcome = LoginOutcome(storage: Storage, notice: Option<Notice>, closesLogin: bool, refetches: bool)

  /** The settings page's login button: both fields trimmed, both required. */
  function Login(st: Storage, encode: string -> string, userField: string, passField: string): (r: LoginOutcome)
    ensures Trim(userField) == "" || Trim(passField) == "" ==>
              r == LoginOutcome(st, Some(Notice("Введите логин и пароль", true)), false, false)
    ensures r.storage != st ==> Trim(userField) != "" && Trim(passField) != ""
    ensures r.closesLogin <==> Trim(userField) != "" && Trim(passField) != "" && Latin1(Credential(Trim(userField), Trim(passField)))
    ensures r.closesLogin ==> r.refetches && GetPanelAuth(r.storage) == encode(Credential(Trim(userField), Trim(passField)))
    ensures r.closesLogin ==> r.storage == SetPanelAuth(st, encode, Trim(userField), Trim(passField)).value
    ensures !r.closesLogin ==> r.storage == st && !r.refetches
    ensures r.notice.Some? <==> Trim(userField) == "" || Trim(passField) == ""
    ensures r.storage.local == st.local && r.storage.session - {PanelAuthKey} == st.session - {PanelAuthKey}
  {
    var u := Trim(userField);
    var p := Trim(passField);
    if u == "" || p == "" then LoginOutcome(st, Some(Notice("Введите логин и пароль", true)), false, false)
    else
      match SetPanelAuth(st, encode, u, p)
      case None => LoginOutcome(st, None, false, false)
      case Some(st') => LoginOutcome(st', None, true, true)
  }

  /** After the login button, requests carry exactly the Basic header of the
      trimmed credentials; when the login is refused, they carry what they
      carried before. (`btoa` of a non-empty text is never empty; the opaque
      encoder is asked for the same.) */
  lemma LoginSetsHeader(st: Storage, encode: string -> string, userField: string, passField: string)
    requires encode(Credential(Trim(userField), Trim(passField))) != ""
    ensures Login(st, encode, userField, passField).closesLogin ==>
              GetAuthHeader(Login(st, encode, userField, passField).storage) ==
                map["Authorization" := "Basic " + encode(Credential(Trim(userField), Trim(passField)))]
    ensures !Login(st, encode, userField, passField).closesLogin ==>
              GetAuthHeader(Login(st, encode, userField, passField).storage) == GetAuthHeader(st)
  {
  }

  /** A 401 takes precedence in both save forms: whatever its body, the
      credentials are not saved, the failure notice is the last one shown
      and the login dialog opens. */
  lemma SaveFormsOn401(st: Storage, encode: string -> string, userField: string, passField: string, text: Option<string>, jsonValid: bool)
    requires Trim(userField) != "" || Trim(passField) != ""
    ensures var r := SaveProxyCreds(st, userField, passField, Replied(401, text, jsonValid));
              r.storage == st && r.notices == [Notice("Ошибка сохранения прокси-учёток", true)] && r.opensLogin
    ensures var r := SavePanelCreds(st, encode, userField, passField, Replied(401, text, jsonValid));
              r.storage == st && r.notices == [PanelSaveFailed] && r.opensLogin
  {
  }

  /** Once the server has accepted them, saving panel credentials changes the
      browser's storage exactly as the login button with the same fields
      would. */
  lemma SaveMatchesLogin(st: Storage, encode: string -> string, userField: string, passField: string, reply: ApiReply)
    requires ApiSucceeded(reply)
    ensures SavePanelCreds(st, encode, userField, passField, reply).storage == Login(st, encode, userField, passField).storage
  {
  }
}

=== FILE: shared_state.dfy ===
/** Facts about the two pages together. Both are served from one origin, so
    they share `localStorage`, and both read and write
    `localStorage.rotateToken`. `sessionStorage` is shared only between pages
    opened in the same tab; the facts about `sessionStorage.panelAuth` (the
    settings page's credential key and the dashboard's compatibility key)
    describe that case, with one `Storage` value standing for the tab's. */
module SharedState {
  import opened Wrappers
  import opened Text
  import opened Browser
  import Panel
  import Settings

  /** A login on the settings page is visible to the dashboard's
      `getAuthB64`, in the same tab, when the dashboard has no credential of
      its own in `localStorage`. */
  lemma SettingsLoginReachesPanel(st: Storage, encode: string -> string, user: string, pass: string)
    requires ItemOrEmpty(st.local, Panel.LsKey) == ""
    requires Settings.SetPanelAuth(st, encode, user, pass).Some?
    ensures Panel.GetAuthB64(Settings.SetPanelAuth(st, encode, user, pass).value) == encode(Credential(user, pass))
  {
  }

  /** When the dashboard already holds a credential in `localStorage`, a new
      login on the settings page does not change what the dashboard reads:
      the older credential wins. */
  lemma PanelLocalCredentialWins(st: Storage, encode: string -> string, user: string, pass: string)
    requires ItemOrEmpty(st.local, Panel.LsKey) != ""
    requires Settings.SetPanelAuth(st, encode, user, pass).Some?
    ensures Panel.GetAuthB64(Settings.SetPanelAuth(st, encode, user, pass).value) == Panel.GetAuthB64(st)
  {
  }

  /** A token saved on the settings page is what the dashboard's rotate
      button sends; after it is cleared, the button sends no token. */
  lemma SavedTokenIsSent(st: Storage, field: string, encodeUri: string -> string)
    ensures Trim(field) != "" ==>
              Panel.RotateUrl(Settings.SaveRotateToken(st, Some(field)).storage, encodeUri)
                == "/rotate?token=" + encodeUri(Trim(field))
    ensures Trim(field) == "" ==>
              Panel.RotateUrl(Settings.SaveRotateToken(st, Some(field)).storage, encodeUri) == Panel.RotateUrl(st, encodeUri)
    ensures Panel.RotateUrl(Settings.ClearRotateToken(st, Some(field)).effect.storage, encodeUri) == "/rotate"
  {
    TrimIdempotent(field);
    assert Trim("") == "" by { TrimEmptyIff(""); }
  }

  /** The two login forms disagree on a password made only of whitespace:
      the dashboard does not trim the password, so it stores the credential
      and re-fetches its data; the settings page trims it and refuses. */
  lemma LoginFormsDisagreeOnBlankPassword(st: Storage, encode: string -> string, user: string, pass: string)
    requires Trim(user) != "" && pass != "" && Trim(pass) == ""
    requires Latin1(Credential(Trim(user), pass))
    ensures var r := Panel.Login(st, encode, Some(user), Some(pass));
              && r.storage == Panel.SetAuth(st, encode, Trim(user), pass).value
              && Panel.GetAuthB64(r.storage) == encode(Credential(Trim(user), pass))
              && r.refetches
    ensures Settings.Login(st, encode, user, pass) ==
              Settings.LoginOutcome(st, Some(Notice("Введите логин и пароль", true)), false, false)
  {
  }
}

=== FILE: text.dfy ===
/** The few JavaScript string operations the dashboard relies on:
    `String.prototype.trim`, `includes`, `startsWith`, `Array.prototype.join`
    and the decimal rendering of an integer inside a template literal. */
module Text {

  /** The code points `String.prototype.trim` removes: ECMAScript's WhiteSpace
      (tab, vertical tab, form feed, space, no-break space, byte-order mark and
      the Unicode "Zs" separators) and LineTerminator (LF, CR, LS, PS). */
  predicate IsJsSpace(c: char) {
    || c == '\t' || c == '\n' || c == '\U{000B}' || c == '\U{000C}' || c == '\r'
    || c == ' ' || c == '\U{00A0}' || c == '\U{1680}'
    || ('\U{2000}' <= c <= '\U{200A}')
    || c == '\U{2028}' || c == '\U{2029}' || c == '\U{202F}' || c == '\U{205F}'
    || c == '\U{3000}' || c == '\U{FEFF}'
  }

  predicate AllSpace(s: string) {
    forall k :: 0 <= k < |s| ==> IsJsSpace(s[k])
  }

  /** Every code point of `s` at positions `lo` up to (not including) `hi`
      is whitespace. */
  predicate SpaceBetween(s: string, lo: int, hi: int) {
    forall k :: 0 <= lo <= k < hi <= |s| ==> IsJsSpace(s[k])
  }

  /** The first position at or after `i` that does not hold whitespace
      (`|s|` when there is none). */
  function SkipSpaces(s: string, i: nat): (n: nat)
    requires i <= |s|
    ensures i <= n <= |s|
    ensures SpaceBetween(s, i, n)
    ensures n < |s| ==> !IsJsSpace(s[n])
    decreases |s| - i
  {
    if i < |s| && IsJsSpace(s[i]) then SkipSpaces(s, i + 1) else i
  }

  /** Walking back from `e` towards `lo`: the end of the last non-whitespace
      code point before `e` (`lo` when there is none). */
  function SkipSpacesBack(s: string, lo: nat, e: nat): (m: nat)
    requires lo <= e <= |s|
    ensures lo <= m <= e
    ensures SpaceBetween(s, m, e)
    ensures m > lo ==> !IsJsSpace(s[m - 1])
  {
    if e > lo && IsJsSpace(s[e - 1]) then SkipSpacesBack(s, lo, e - 1) else e
  }

  /** `s[i..j]` is `s` with the whitespace at both ends cut off: everything
      outside it is whitespace and, unless it is empty, it starts and ends
      with a non-whitespace code point. */
  predicate TrimBounds(s: string, i: int, j: int) {
    && 0 <= i <= j <= |s|
    && SpaceBetween(s, 0, i) && SpaceBetween(s, j, |s|)
    && (i < j ==> !IsJsSpace(s[i]) && !IsJsSpace(s[j - 1]))
  }

  /** `r` is what remains of `s` once the whitespace at both ends is cut off. */
  ghost predicate TrimmedFrom(r: string, s: string) {
    exists i, j :: TrimBounds(s, i, j) && r == s[i..j]
  }

  /** `String.prototype.trim`. */
  function Trim(s: string): (r: string)
    ensures TrimmedFrom(r, s)
    ensures |r| <= |s|
  {
    var i := SkipSpaces(s, 0);
    var j := SkipSpacesBack(s, i, |s|);
    assert TrimBounds(s, i, j);
    s[i..j]
  }

  /** Trimming has exactly one possible outcome: `TrimmedFrom` is a complete
      description of `Trim`. */
  lemma TrimUnique(r: string, s: string)
    requires TrimmedFrom(r, s)
    ensures r == Trim(s)
  {
  }

  /** A string with no whitespace at either end is its own trim. */
  lemma TrimNoOuterSpace(s: string)
    requires s == [] || (!IsJsSpace(s[0]) && !IsJsSpace(s[|s| - 1]))
    ensures Trim(s) == s
  {
  }

  /** Trimming twice is trimming once. */
  lemma TrimIdempotent(s: string)
    ensures Trim(Trim(s)) == Trim(s)
  {
  }

  /** A string trims to the empty string exactly when it is all whitespace. */
  lemma TrimEmptyIff(s: string)
    ensures Trim(s) == [] <==> AllSpace(s)
  {
  }

  /** `s.startsWith(prefix)`. */
  predicate StartsWith(s: string, prefix: string) {
    |prefix| <= |s| && s[..|prefix|] == prefix
  }

  /** `needle` sits in `s` at index `i`. */
  ghost predicate OccursAt(s: string, needle: string, i: int) {
    0 <= i && i + |needle| <= |s| && s[i..i + |needle|] == needle
  }

  /** `s.includes(needle)`, scanning left to right. */
  function Includes(s: string, needle: string): bool
    decreases |s|
  {
    StartsWith(s, needle) || (|s| > 0 && Includes(s[1..], needle))
  }

  /** `Includes` holds exactly when the needle occurs at some index. */
  lemma {:induction false} IncludesIff(s: string, needle: string)
    ensures Includes(s, needle) <==> exists i :: OccursAt(s, needle, i)
    decreases |s|
  {
    if StartsWith(s, needle) {
      assert OccursAt(s, needle, 0);
    } else if |s| == 0 {
    } else {
      IncludesIff(s[1..], needle);
      if exists i :: OccursAt(s[1..], needle, i) {
        var i :| OccursAt(s[1..], needle, i);
        assert s[i + 1..i + 1 + |needle|] == s[1..][i..i + |needle|];
        assert OccursAt(s, needle, i + 1);
      }
      if exists i :: OccursAt(s, needle, i) {
        var i :| OccursAt(s, needle, i);
        if i != 0 {
          assert s[1..][i - 1..i - 1 + |needle|] == s[i..i + |needle|];
          assert OccursAt(s[1..], needle, i - 1);
        }
      }
    }
  }

  /** Every string includes the empty string. */
  lemma IncludesEmpty(s: string)
    ensures Includes(s, "")
  {
  }

  /** Equal texts with the same text before and after have equal middles. */
  lemma SameFrame(p: string, x: string, y: string, q: string)
    requires p + x + q == p + y + q
    ensures x == y
  {
    var t := p + x + q;
    assert x == t[|p|..|p| + |x|];
    assert y == (p + y + q)[|p|..|p| + |y|];
  }

  /** Index of the first `mark` in `s` (`|s|` when there is none). */
  function IndexOf(s: string, mark: char): nat {
    if s == [] || s[0] == mark then 0 else 1 + IndexOf(s[1..], mark)
  }

  lemma {:induction false} IndexOfAfter(a: string, mark: char, r: string)
    requires mark !in a
    ensures IndexOf(a + [mark] + r, mark) == |a|
  {
    if a != [] {
      assert (a + [mark] + r)[1..] == a[1..] + [mark] + r;
      IndexOfAfter(a[1..], mark, r);
    }
  }

  /** Text glued around a separator that occurs in neither leading part
      splits back at the first occurrence: the parts are recovered. */
  lemma SplitAtMark(a1: string, r1: string, a2: string, r2: string, mark: char)
    requires mark !in a1 && mark !in a2
    requires a1 + [mark] + r1 == a2 + [mark] + r2
    ensures a1 == a2 && r1 == r2
  {
    IndexOfAfter(a1, mark, r1);
    IndexOfAfter(a2, mark, r2);
    var t := a1 + [mark] + r1;
    assert a1 == t[..|a1|] == a2;
    assert r1 == t[|a1| + 1..] == r2;
  }

  /** `parts.join(sep)`. */
  function Join(parts: seq<string>, sep: string): (r: string)
    ensures |parts| > 0 ==> StartsWith(r, parts[0])
  {
    if |parts| == 0 then ""
    else if |parts| == 1 then parts[0]
    else parts[0] + sep + Join(parts[1..], sep)
  }

  function DigitChar(d: nat): (c: char)
    requires d < 10
    ensures '0' <= c <= '9' && c as int - '0' as int == d
  {
    ('0' as int + d) as char
  }

  predicate AllDigits(s: string) {
    forall k :: 0 <= k < |s| ==> '0' <= s[k] <= '9'
  }

  /** Decimal text of a non-negative integer, as JavaScript prints it. */
  function NatToString(n: nat): (r: string)
    ensures |r| > 0 && AllDigits(r)
    ensures r[0] == '0' ==> n == 0
  {
    if n < 10 then [DigitChar(n)]
    else NatToString(n / 10) + [DigitChar(n % 10)]
  }

  /** The value of a string of decimal digits. */
  function DigitsValue(s: string): nat
    requires AllDigits(s)
  {
    if s == [] then 0
    else DigitsValue(s[..|s| - 1]) * 10 + (s[|s| - 1] as int - '0' as int)
  }

  /** Reading back the decimal text gives the number. */
  lemma {:induction false} NatToStringRoundTrip(n: nat)
    ensures DigitsValue(NatToString(n)) == n
  {
    if n >= 10 {
      NatToStringRoundTrip(n / 10);
      var r := NatToString(n);
      assert r[..|r| - 1] == NatToString(n / 10);
    }
  }

  /** Decimal text of an integer, with a leading `-` when negative. */
  function IntToString(i: int): (r: string)
    ensures |r| > 0
    ensures r[0] == '-' <==> i < 0
    ensures AllDigits(if i < 0 then r[1..] else r)
  {
    if i < 0 then "-" + NatToString(-i) else NatToString(i)
  }

  /** Different natural numbers print differently. */
  lemma NatToStringInjective(a: nat, b: nat)
    requires NatToString(a) == NatToString(b)
    ensures a == b
  {
    NatToStringRoundTrip(a);
    NatToStringRoundTrip(b);
  }

  /** Different integers print differently. */
  lemma IntToStringInjective(i: int, j: int)
    requires IntToString(i) == IntToString(j)
    ensures i == j
  {
    var r := IntToString(i);
    if i < 0 {
      assert j < 0 by { assert r[0] == '-'; }
      assert NatToString(-i) == r[1..] == NatToString(-j);
      NatToStringInjective(-i, -j);
    } else {
      assert j >= 0 by { assert r[0] != '-'; }
      NatToStringInjective(i, j);
    }
  }
}

=== FILE: wrappers.dfy ===
/** Optional values standing in for JavaScript's `null`/`undefined`. */
module Wrappers {

  /** A value that may be absent (`null` or `undefined` in the dashboard code). */
  datatype Option<+T> = None | Some(value: T) {

    /** The wrapped value, or `default` when absent: JavaScript's `x ?? default`. */
    function GetOr(default: T): T {
      match this
      case Some(v) => v
      case None => default
    }
  }
}
